=== FILE: README.md ===
# Chat membership, real-time gateway and ticket rules — a Dafny model

This project models the core of a Django chat and support-ticket backend:

- the **membership store** of a chat: one row per (chat, user) with `is_active` and `is_admin`;
- the **chat gateway**: the websocket consumer that subscribes a connection to its chat's group,
  checks membership on each inbound frame, stores the message, and fans it out to every
  subscribed connection;
- the REST rules that build on them:
  - which chats and messages a user may list;
  - who may post a message;
  - chat creation and the membership actions;
  - the ticket reviewer claim/edit rule, the owner-only update, deletion, the user's ticket list
    and the ticket-detail summary;
- the outbound message representation with its reply/forward details.

Everything is immutable data and pure transition functions. Each operation's contract states
exactly what changes. Lemmas relate the operations:

- remove-then-add restores a row;
- demotion never removes the last admin;
- the gateway invariant holds across connect, disconnect and receive, each taken as one step,
  and in particular every outbox then lists stored messages in store order;
- a posted message is listed back to its author;
- a rendered detail identifies its message.

Modules, one per component:

| file | module | models |
|---|---|---|
| wrappers.dfy | `Wrappers` | `Option`, `Result` |
| types.dfy | `ChatTypes`, `TicketTypes` | the choice enumerations of chat/types.py and ticket/types.py |
| uuids.dfy | `Uuids` | UUID primary keys and their canonical text `str(uuid)` |
| ordering.dfy | `Ordering` | `filter` and `order_by` over rows held as sequences |
| chat_model.dfy | `ChatModel` | `Chat` and `ChatMembership` of ticket/models.py |
| message_model.dfy | `MessageModel` | `Message` of ticket/models.py: the table, its ordering, `notify_chat_members` |
| gateway.dfy | `Gateway` | `ChatConsumer` of chat/consumers.py |
| chat_views.dfy | `ChatViews` | `ChatViewSet`, `MessageViewSet`, `MessageCreateView` of chat/views.py |
| ticket_views.dfy | `TicketViews` | `AdminEditTicket`, `TicketViewSet`, `UserTicketList`, `TicketDetailViewSet` of ticket/views.py |
| serializers.dfy | `Serializers` | `MessageSerializer` and `ChatSerializer.get_member_count` of ticket/serializers.py |

Modelling choices:

- **Ids.** Every id is a `Uuid`: a natural below 16^32. The explicit routes at chat/urls.py:19-20
  and ticket/urls.py:18-19 use the `uuid` path converter. The other ids are assumptions listed
  under "Left out". `str()` of an id is its canonical text: 32 lower-case hex
  digits grouped 8-4-4-4-12.
  `Uuids.TextInjective` proves that this text identifies the id. The chat group name
  `"chat_" + Text(chat)` therefore never collides between chats.
- **Parameters.** Server-generated primary keys (`uuid4`) are passed in as `freshId` parameters.
  A precondition says the id is not yet used.
- **Clock.** The `auto_now_add` clock is a counter in the message table. Each new row takes the
  current value, and the counter then advances.
- **Gateway state.** The gateway is one immutable `State` with these parts:
  - the chats;
  - the membership store;
  - the message table;
  - the group registry: group name to channel names;
  - the sessions: channel name to the connection context (chat, user, closed);
  - one outbox per session.

  `group_send`, followed by each subscriber's `chat_message` handler, becomes `GroupSend`: it
  appends the stored message to the outbox of every channel in the group at that moment.
  `Receive` also returns the ordered effects of the frame (`Append`, `Publish`, `CloseSession`).
  This makes "stored before published" and "no append, no publish" statable.

Behaviour of the code that a reader might not expect, modelled as written:

- `ChatSerializer.Meta.read_only_fields` is all of its fields, so chat creation ignores the request
  body. A new chat has no name, is active and is private, with the requester as creator
  (`ChatViews.PerformCreate`).
- `MessageViewSet.get_queryset` holds every message of every chat where the requester is active,
  whoever sent it; update and delete look messages up in the same queryset and check nothing
  more. `ChatViews.OthersMessagesListed` states that other users' messages are listed.

- `connect` subscribes the connection to its chat's group without any membership check; only
  `receive` checks `can_message`. `Gateway.ConnectIgnoresMembership` states that the subscription
  does not depend on membership.
- `MessageSerializer.Meta.fields` has neither `id` nor `forward_from`
  (`Serializers.RepresentationOmitsIdAndForwardFrom`). Its `voice` is read-only, because a
  `BinaryField` is not editable by default. A message created through the message views is
  therefore saved without `voice` and without `forward_from`. The consumer publishes the model instance
  itself, not a serialized form.
- `remove_member` has no last-admin guard, unlike `demote_admin`. Removing the sole active admin
  succeeds and leaves the chat with no active admin (`ChatModel.RemoveMemberBypassesAdminGuard`).
  Any active member can reach this through the `remove_member` action.
- `TicketViewSet.perform_update` makes the ticket's owner its reviewer, as written.

## Model

| member | source | states |
|---|---|---|
| ChatTypes.Parse | chat/types.py:3-6 | a stored chat-type value reads back to the unique choice with that value; values outside the choices read as none |
| ChatTypes.ParseValue | chat/types.py:3-6 | every chat type's stored value reads back to that type |
| TicketTypes.ParsePriority | ticket/types.py:3-6 | a priority value reads back to the unique choice with that value; others read as none |
| TicketTypes.ParseStatus | ticket/types.py:8-10 | a status value reads back to the unique choice with that value; others read as none |
| TicketTypes.ParseCategory | ticket/types.py:12-15 | a category value reads back to the unique choice with that value; others read as none |
| TicketTypes.CategoryMatchesParse | ticket/views.py:78-80 | the `category=` filter keeps a ticket exactly when the parameter parses to the ticket's stored category |
| TicketTypes.StatusMatchesParse | ticket/views.py:81-83 | the `status=` filter keeps a ticket exactly when the parameter parses to the ticket's stored status |
| Uuids.TextInjective | ticket/serializers.py:57 | two ids with the same `str()` text are the same id |
| ChatModel.ActiveMembers | ticket/models.py:88-90 | `active_memberships` holds user u exactly when the (chat, u) row exists and is active |
| ChatModel.ActiveAdmins | ticket/models.py:177 | the admins of `can_remove_admin` are exactly the users whose row is active and admin; they are all active members |
| ChatModel.CanMessage | ticket/models.py:190-191 | `can_message(u)` holds iff u's row exists and is active |
| ChatModel.IsUserAdmin | ticket/models.py:193-197 | `is_user_admin(u)` holds iff `can_message(u)` and u's row is admin |
| ChatModel.CanRemoveAdmin | ticket/models.py:176-178 | `can_remove_admin(u)` is false exactly when the active admins are u alone |
| ChatModel.CreateCreatorMembership | ticket/models.py:103-115 | no creator leaves the store unchanged; otherwise the creator's row exists, rows that already existed are untouched, and a new row is active and admin |
| ChatModel.AddMember | ticket/models.py:117-153 | always returns success and u can message afterwards; at most u's row is added, so a pair never gets a second row; a new row is active non-admin; an old row keeps its admin flag; no other row changes; the active set gains exactly u; the invitee is notified iff an inviter is given; the other previously active members are announced to |
| ChatModel.RemoveMember | ticket/models.py:156-174 | succeeds iff u could message; on failure nothing changes and nobody is notified; on success only u's row loses `is_active` and u is notified; u cannot message afterwards |
| ChatModel.PromoteToAdmin | ticket/models.py:180-181 | only u's row can change, and only if active; u is an admin afterwards iff u was an active member; the active set is unchanged |
| ChatModel.DemoteAdmin | ticket/models.py:183-185 | only u's active row can change; the active admins lose u exactly when `can_remove_admin(u)` holds, and are unchanged otherwise |
| ChatModel.DemoteKeepsAnAdmin | ticket/models.py:176-185 | a chat with at least one active admin still has one after any demotion |
| ChatModel.DemoteSoleAdminRefused | ticket/models.py:176-185 | demoting the sole active admin changes nothing and that user stays admin |
| ChatModel.RemoveThenAdd | ticket/models.py:121-165 | remove then add leaves u able to message with at most u's one row added; an active member's row is restored exactly, admin flag included |
| ChatModel.AddActiveMemberUnchanged | ticket/models.py:121-132 | adding an already active member changes no row |
| ChatModel.MemberCount | ticket/models.py:88-94 | `member_count` is the number of active membership rows of the chat (`active_memberships.count()`) |
| ChatModel.IsPrivate | ticket/models.py:96-98 | a chat is private iff no three distinct users are active members of it |
| ChatModel.MemberCountAfterAdd | ticket/models.py:92-98 | `member_count` grows by one exactly when u was not an active member; `is_private` afterwards iff the new count is at most two |
| ChatModel.MemberCountAfterRemove | ticket/models.py:92-98 | `member_count` drops by one exactly when u was an active member; a private chat stays private |
| ChatModel.RemoveMemberBypassesAdminGuard | ticket/models.py:156-178 | removing the sole active admin succeeds and leaves no active admin |
| ChatModel.OtherChatsUnaffected | ticket/models.py:117-185 | add, remove, promote and demote on one chat leave every other chat's members and admins unchanged |
| MessageModel.Create | ticket/models.py:250-296 | creating a message appends exactly one row carrying the given id, chat, sender, content, voice, links and edit flag; its `sent_at` is later than every earlier stamp; table validity is preserved |
| MessageModel.DefaultOrder | ticket/models.py:298-299 | the default query order is a permutation of the rows with non-decreasing `sent_at` |
| MessageModel.DefaultOrderOfValidTable | ticket/models.py:277-299 | on a valid table the `sent_at` order is the insertion order |
| MessageModel.Find | ticket/models.py:281-294 | dereferencing a message foreign key yields a row with that id, or none exists |
| MessageModel.Preview | ticket/models.py:318 | the description is the content (or empty) cut to at most 100 characters, a prefix of it, and all of it when shorter |
| MessageModel.NotifyChatMembers | ticket/models.py:304-323 | nobody is notified without chat or sender; otherwise exactly the active members other than the sender; the sender is never notified; the description is the preview of the content |
| Gateway.GroupNameInjective | chat/consumers.py:12-13 | distinct chats have distinct `chat_<id>` group names |
| Gateway.GroupSend | chat/consumers.py:46-55 | a publish appends the message to the outbox of every subscriber of the group, the sender included; every other outbox is unchanged |
| Gateway.Connect | chat/consumers.py:11-20 | connect adds the session to its chat's group only, records the session open with an empty outbox, and touches nothing else |
| Gateway.Disconnect | chat/consumers.py:22-26 | disconnect removes the session from its chat's group only and marks it closed; outboxes, table and memberships are unchanged |
| Gateway.Receive | chat/consumers.py:28-66 | an empty frame has no effect; a missing chat has no effect; a non-member's frame only closes the session; a non-empty frame from an active member of an existing chat is always broadcast: exactly one row with the session's chat and user and the frame's content and voice is appended, and then published once to the session's group |
| Gateway.ConnectPreservesValid | chat/consumers.py:11-20 | connect keeps the gateway invariant |
| Gateway.DisconnectPreservesValid | chat/consumers.py:22-26 | disconnect keeps the gateway invariant |
| Gateway.GroupSendInStoreOrder | chat/consumers.py:46-55 | publishing a message newer than every stored row keeps each outbox in store order |
| Gateway.BroadcastPreservesValid | chat/consumers.py:43-52 | storing a message newer than every row and publishing it to one group keeps the gateway invariant |
| Gateway.ReceivePreservesValid | chat/consumers.py:28-66 | receive, taken as one step, keeps the gateway invariant, so every outbox stays in store order |
| Gateway.DisconnectIdempotent | chat/consumers.py:22-26 | disconnecting twice equals disconnecting once |
| Gateway.ConnectIgnoresMembership | chat/consumers.py:11-20 | the subscription made by connect does not depend on the membership store |
| Gateway.ScenarioBothSubscribersReceive | chat/consumers.py:28-55 | a member's "hi" with two subscribed sessions stores one row, and both sessions receive it with content "hi" |
| Gateway.ScenarioNoRetroactiveDelivery | chat/consumers.py:11-55 | a session that disconnected misses later messages; a new session starts with an empty outbox |
| ChatViews.VisibleChats | chat/views.py:40-45 | the chat list holds exactly the existing chats where the requester's row is active, each once |
| ChatViews.PerformCreate | chat/views.py:47-49 | the new chat has the requester as creator, no name, is active and of type `private`, whatever the request body says; the requester is its only active member and an admin, so it is private and visible to them; existing rows are unchanged |
| ChatViews.AddMemberAction | chat/views.py:51-57 | 404 unless the chat is visible to the requester and the user exists; otherwise the response is `add_member`'s result |
| ChatViews.RemoveMemberAction | chat/views.py:59-65 | 404 unless the chat is visible to the requester and the user exists; otherwise the response is `remove_member`'s result, which succeeds iff the user was active |
| ChatViews.VisibleMessages | chat/views.py:74-86 | the message list holds exactly the messages of chats where the requester is active, restricted to the `chat` parameter when given, with multiplicity kept, in non-decreasing `sent_at` |
| ChatViews.CreateMessage | chat/views.py:88-92 | refused with no save iff the requester cannot message the chat (a missing chat key raises); otherwise one row is saved with the requester as sender, the request's chat, content, reply and edit flag, and no voice and no `forward_from` |
| ChatViews.CreateInChat | chat/views.py:101-108 | 404 for an unknown URL chat; refusal with no save for a non-member; otherwise one row in the URL chat with the requester as sender, the request's content, reply and edit flag, and no voice and no `forward_from` |
| ChatViews.OthersMessagesListed | chat/views.py:74-86 | a message another user sent to a chat where the requester is active is listed for the requester, with or without that chat as the `chat` parameter |
| ChatViews.PostedMessageIsListed | chat/views.py:74-108 | a message posted through the chat URL appears in the author's list for that chat |
| ChatViews.MembershipControlsVisibility | chat/views.py:40-86 | after `add_member` the chat is visible to the user; after `remove_member` neither the chat nor its messages are |
| TicketViews.AdminEditTicket | ticket/views.py:232-259 | a claim by a non-reviewer sets only the reviewer (200); a non-reviewer without a claim gets 400 and no change; the reviewer's request sets `is_resolved`, `can_reply`, `can_upload_attachment` and `status` to the request values, absent ones included (200); other tickets are untouched |
| TicketViews.OnlyReviewerEdits | ticket/views.py:234-256 | no request changes the owner, and status or flags change only for a requester who was already the reviewer |
| TicketViews.ClaimThenEdit | ticket/views.py:234-256 | after a successful claim, the same requester's next request edits the ticket |
| TicketViews.PerformUpdate | ticket/views.py:190-196 | 404 iff the ticket is unknown; the validated changes are saved iff the requester owns the ticket, and then only that ticket changes: it becomes the validated edit except that its id is kept and the requester is its reviewer and updater; otherwise nothing is saved |
| TicketViews.UpdateThenEdit | ticket/views.py:190-196 | after the owner's update the owner is the reviewer, so the owner's next staff edit succeeds without a claim; a non-owner's update changes nothing |
| TicketViews.Destroy | ticket/views.py:183-188 | the ticket is deleted (204) iff it exists and `can_delete` allows it; otherwise nothing changes |
| TicketViews.OrderTickets | ticket/views.py:84-88 | the `ordering` parameter keeps the same rows with multiplicity; `created_at` gives non-decreasing and `-created_at` non-increasing `created_at`; any other value leaves the order alone |
| TicketViews.UserTickets | ticket/views.py:70-89 | the list holds exactly the requester's tickets that match the search, category and status parameters, each as often as in the table, in the requested `created_at` order, or in table order when none is requested |
| TicketViews.UserTicketsMatchQuery | ticket/views.py:74-83 | every listed ticket belongs to the requester and matches the non-empty category and status parameters |
| TicketViews.ListDetails | ticket/views.py:113-133 | 400 (as reply and status code) iff there is no ticket parameter; status 404 iff no detail has that ticket; a summary iff some detail has that ticket, 404 otherwise; the summary is that ticket's title, number, status, creator, category and reviewer (empty strings when absent), and exactly its details |
| Serializers.RefDetail | ticket/serializers.py:54-61 | the detail is none iff the reference is; its id is the referenced message's id text, its content is copied, and its sender is none iff the referenced sender is, and otherwise that sender's id text |
| Serializers.ReplyToDetail | ticket/serializers.py:54-61 | `reply_to_detail` is none iff there is no `reply_to`; otherwise it carries the referenced row's id, sender and content by the laws of `RefDetail` |
| Serializers.ForwardFromDetail | ticket/serializers.py:63-70 | `forward_from_detail` obeys the same laws for `forward_from` |
| Serializers.ReplyDetailIdentifiesReference | ticket/serializers.py:54-61 | two messages with equal reply details reply to the same message |
| Serializers.ForwardDetailIdentifiesReference | ticket/serializers.py:63-70 | two messages with equal forward details forward the same message |
| Serializers.MessageRepresentation | ticket/serializers.py:30-51 | the representation has exactly the `Meta.fields` keys in order; chat, sender, content, reply_to and is_edited come from the message; the two detail keys hold the rendered details |
| Serializers.RepresentationOmitsIdAndForwardFrom | ticket/serializers.py:39-51 | the representation has no `id` key and no `forward_from` key; looking up `id` finds nothing |
| Serializers.GetMemberCount | ticket/serializers.py:95-96 | `member_count` is the number of active members, and zero iff nobody can message the chat |

## Left out

- Persistence: the database, transactions, and `get_or_create` atomicity under concurrent requests. Stores are in-memory maps and sequences.
- Gateway.Receive: requires the session to be open, because the runtime delivers no frames after `close()` or `disconnect`; a frame on a closed connection is not represented.
- Channels runtime: async scheduling, `database_sync_to_async`, cross-process distribution of the channel layer, and the accept/close handshake. The gateway is a sequential state machine. After `close()` the runtime calls `disconnect`. Here `Receive` only marks the session closed, and the group removal is the separate `Disconnect` step.
- JSON decoding of inbound frames and encoding of outbound ones. A frame is already decoded, and a non-object frame or a non-string `message` is not represented. The consumer publishes a model instance that `json.dumps` could not encode; the model publishes the stored record.
- `scope['user']` is taken to be an authenticated user id; `AnonymousUser` is not represented.
- The websocket route is not part of this model. The model assumes it converts `chat_id` to a UUID; a non-UUID `chat_id` is not represented.
- The router's detail routes (for example `chats/<pk>/add_member/` from chat/urls.py:14) match `pk` with the router's default pattern, not the `uuid` converter. The model takes every such `pk` to be a UUID, and a malformed one is not represented.
- The `chat` query parameter of the message list (chat/views.py:82-84) and the `ticket` query parameter of the ticket-detail list (ticket/views.py:114-117) are raw strings. The model takes them to be UUIDs (`chatParam`, `ticketParam`). A non-UUID value makes the lookup raise, and that case is not represented.
- The primary keys of `User` and of every `GenericModel` subclass are taken to be UUIDs; `GenericModel` and the user model are not part of this model. A `user_id` in a request body (chat/views.py:55,63) passes through no `uuid` converter, and a malformed one is not represented.
- An unknown chat in `receive` raises; the model records this as the `ChatMissing` outcome with no effect. What the runtime then does with the socket is not modelled.
- Notifications: `Notifs` rows, their Persian text, the `type=` keyword at ticket/models.py:149,170 and the chat name in the text are not modelled. Only the recipient sets are modelled.
- `sent_at` and `created_at` are abstract counters, not datetimes. The representation renders `sent_at` as that counter.
- Voice payloads are opaque byte strings.
- `sender_profile` is passed in already rendered. `ProfileSerializer` and DRF's handling of a missing sender are not modelled.
- `ChatSerializer` fields other than `member_count` are not modelled. `ChatMembershipSerializer` is not modelled either.
- `Chat.__str__`, `Profile`, `ProfileViewSet` and chat/signals.py (profile creation on user save): no logic that the rules above depend on.
- `Ticket` and `TicketDetail` models: their fields are inferred from the views; `can_delete` is an opaque predicate parameter. Status values outside the choices and `NULL` constraints of ticket fields are not represented.
- `AdminEditTicket.put` with an unknown id dereferences `None`; the model requires the id to exist.
- `MessageViewSet.perform_create` and `MessageCreateView.perform_create`: serializer validation happens before them and is not modelled. An unknown chat id, or a `reply_to` that names no message, gets a 400 there. The model saves whatever `replyTo` the draft carries, so a dangling `replyTo` that validation would have refused can reach the table.
- DRF filter, search, ordering and pagination backends, and the `Ticket` default ordering. With no recognised `ordering`, `UserTickets` keeps the input order. The case-insensitive `icontains` search is the `titleContains` parameter.
- The ticket detail records are returned as records; `TicketDetailSerializer` is not modelled. `str()` of a user and `full_name` are the `show` and `fullName` parameters.
- `UserCreateTicket`, `CreateTicketDetail`, `TicketDetailViewSet.get_queryset`, `perform_create` and `perform_update`, `AdminTicketListViewSet`, `AdminTicketReviewerList`, `AdminCreateTicketAPIView`: these are serializer saves and querysets whose only rule is stamping the requester, which `PerformUpdate` already shows. They depend on serializers outside this model. `TicketDetailViewSet.destroy` (ticket/views.py:135-140) has the same shape as `TicketViewSet.destroy` and is covered by `Destroy`.
- Admin registration, URL configuration and app configuration files.
- chat/views.py and chat/consumers.py import `Chat`, `Message`, `Profile` and the serializers from `chat.models` and `chat.serializers`, which are not part of this model. The model takes ticket/models.py and ticket/serializers.py to be those modules. `MessageRealtimeSerializer`, imported by the consumer and defined in neither file, is not modelled. The read-only conclusions about `voice`, `forward_from` and the chat fields rest on this assumption.
- Import-time defects are not modelled; the model takes the evidently intended classes:
  - ticket/models.py:72 uses `CHAT_TYPE_CHOICES` without importing it;
  - `ChatSerializer` (ticket/serializers.py:75) subclasses no serializer base;
  - `ChatMembershipSerializer` (ticket/serializers.py:101) names `serializers.ModelSerializerizer`.
- The `is_private` database column (ticket/models.py:66-69) is shadowed by the `is_private` property, so only the property is modelled.
- Gateway.ReceivePreservesValid: the store-order result holds because `Receive` stores and publishes as one step. The consumer awaits `create_message` (chat/consumers.py:43) and `group_send` (chat/consumers.py:46) separately, so two connections' frames can interleave, and a subscriber may see a later row before an earlier one. That interleaving is not modelled.
- `Message.content[:100]` in Python slices code points; here a string is a sequence of characters and `Preview` takes the first 100 of them.

=== FILE: chat_model.dfy ===
/** The chat membership store (the `Chat` and `ChatMembership` models of ticket/models.py).

    Membership rows are a map keyed by the (chat, user) pair, so the `unique_together`
    constraint holds by construction: every operation below updates at most the one row
    of its pair. Removal is a soft delete that clears `isActive`. */
module ChatModel {
  import opened Wrappers
  import opened Uuids
  import opened ChatTypes

  datatype Chat = Chat(id: Uuid, name: Option<string>, creator: Option<Uuid>, isActive: bool, chatType: ChatType)

  datatype Membership = Membership(isActive: bool, isAdmin: bool)

  /** The `Chat` rows by primary key. */
  type ChatTable = map<Uuid, Chat>

  /** Membership rows by (chat id, user id). */
  type Store = map<(Uuid, Uuid), Membership>

  /** Users of the active rows of chat `c` (`active_memberships`). */
  function ActiveMembers(s: Store, c: Uuid): (r: set<Uuid>)
    ensures forall u :: u in r <==> (c, u) in s && s[(c, u)].isActive
  {
    set k | k in s && k.0 == c && s[k].isActive :: k.1
  }

  /** Users of the active rows of chat `c` that are also admin rows. */
  function ActiveAdmins(s: Store, c: Uuid): (r: set<Uuid>)
    ensures forall u :: u in r <==> (c, u) in s && s[(c, u)].isActive && s[(c, u)].isAdmin
    ensures r <= ActiveMembers(s, c)
  {
    set k | k in s && k.0 == c && s[k].isActive && s[k].isAdmin :: k.1
  }

  /** The active rows of chat `c` (the queryset `active_memberships`). */
  function ActiveRows(s: Store, c: Uuid): set<(Uuid, Uuid)> {
    set k | k in s && k.0 == c && s[k].isActive
  }

  /** Pairs sharing their first component are as many as their second components. */
  lemma {:induction false} SecondsCount(rows: set<(Uuid, Uuid)>, c: Uuid)
    requires forall k | k in rows :: k.0 == c
    ensures |set k | k in rows :: k.1| == |rows|
    decreases |rows|
  {
    if rows != {} {
      var k :| k in rows;
      var rest := rows - {k};
      SecondsCount(rest, c);
      assert (set j | j in rows :: j.1) == (set j | j in rest :: j.1) + {k.1};
      assert k.1 !in (set j | j in rest :: j.1);
    } else {
      assert (set j | j in rows :: j.1) == {};
    }
  }

  /** `member_count`: the number of active rows of the chat (`active_memberships.count()`). */
  function MemberCount(s: Store, c: Uuid): (r: nat)
    ensures r == |ActiveRows(s, c)|
  {
    SecondsCount(ActiveRows(s, c), c);
    assert ActiveMembers(s, c) == set k | k in ActiveRows(s, c) :: k.1;
    |ActiveMembers(s, c)|
  }

  /** Three distinct elements make a set of at least three. */
  lemma ThreeDistinct(a: set<Uuid>, u: Uuid, v: Uuid, w: Uuid)
    requires u in a && v in a && w in a && u != v && v != w && u != w
    ensures |a| >= 3
  {
    assert {u, v, w} <= a;
    assert |a - {u, v, w}| == |a| - 3;
  }

  /** A set has at most two elements iff it holds no three distinct ones. */
  lemma AtMostTwo(a: set<Uuid>)
    ensures |a| <= 2 <==> !exists u, v, w | u in a && v in a && w in a :: u != v && v != w && u != w
  {
    if |a| > 2 {
      var u :| u in a;
      assert |a - {u}| == |a| - 1;
      var v :| v in a - {u};
      assert |a - {u} - {v}| == |a| - 2;
      var w :| w in a - {u} - {v};
    } else {
      forall u, v, w | u in a && v in a && w in a ensures !(u != v && v != w && u != w) {
        if u != v && v != w && u != w {
          ThreeDistinct(a, u, v, w);
        }
      }
    }
  }

  /** The `is_private` property: at most two active members, so no three distinct users are active
      members of the chat. */
  predicate IsPrivate(s: Store, c: Uuid)
    ensures IsPrivate(s, c) <==>
              !exists u, v, w | u != v && v != w && u != w ::
                 && (c, u) in s && s[(c, u)].isActive
                 && (c, v) in s && s[(c, v)].isActive
                 && (c, w) in s && s[(c, w)].isActive
  {
    AtMostTwo(ActiveMembers(s, c));
    MemberCount(s, c) <= 2
  }

  /** `can_message`: some active row of the chat belongs to `u`. */
  predicate CanMessage(s: Store, c: Uuid, u: Uuid)
    ensures CanMessage(s, c, u) <==> (c, u) in s && s[(c, u)].isActive
  {
    u in ActiveMembers(s, c)
  }

  /** `is_user_admin`: some active admin row of the chat belongs to `u`. */
  predicate IsUserAdmin(s: Store, c: Uuid, u: Uuid)
    ensures IsUserAdmin(s, c, u) <==> CanMessage(s, c, u) && s[(c, u)].isAdmin
  {
    u in ActiveAdmins(s, c)
  }

  /** `can_remove_admin`: false when the active admins are exactly one row and it is `u`'s. */
  predicate CanRemoveAdmin(s: Store, c: Uuid, u: Uuid)
    ensures !CanRemoveAdmin(s, c, u) <==> ActiveAdmins(s, c) == {u}
  {
    var admins := ActiveAdmins(s, c);
    assert |admins| == 1 && u in admins ==> admins == {u} by {
      if |admins| == 1 && u in admins {
        assert |admins - {u}| == 0;
      }
    }
    !(|admins| == 1 && u in admins)
  }

  /** `create_creator_membership`: with a creator, `get_or_create` of the creator's row
      with defaults active and admin; a chat without a creator is left alone. */
  function CreateCreatorMembership(s: Store, chat: Chat): (r: Store)
    ensures chat.creator.None? ==> r == s
    ensures chat.creator.Some? ==> r.Keys == s.Keys + {(chat.id, chat.creator.value)}
    ensures forall k | k in s :: r[k] == s[k]
    ensures chat.creator.Some? && (chat.id, chat.creator.value) !in s ==>
              IsUserAdmin(r, chat.id, chat.creator.value)
  {
    match chat.creator
    case None => s
    case Some(u) =>
      if (chat.id, u) in s then s else s[(chat.id, u) := Membership(true, true)]
  }

  /** What `add_member` changes and whom it notifies. */
  datatype AddOutcome = AddOutcome(store: Store, success: bool, invited: set<Uuid>, announced: set<Uuid>)

  /** `add_member(u, added_by)`: `get_or_create` of a non-admin active row, or reactivation of an
      existing inactive one. The invitee is notified when an inviter is given; every other active
      member is told about the new member. */
  function AddMember(s: Store, c: Uuid, u: Uuid, addedBy: Option<Uuid>): (r: AddOutcome)
    ensures r.success
    ensures CanMessage(r.store, c, u)
    ensures r.store.Keys == s.Keys + {(c, u)}
    ensures forall k | k in s && k != (c, u) :: r.store[k] == s[k]
    ensures (c, u) !in s ==> r.store[(c, u)] == Membership(true, false)
    ensures (c, u) in s ==> r.store[(c, u)] == Membership(true, s[(c, u)].isAdmin)
    ensures ActiveMembers(r.store, c) == ActiveMembers(s, c) + {u}
    ensures r.invited == if addedBy.Some? then {u} else {}
    ensures r.announced == ActiveMembers(s, c) - {u}
  {
    var k := (c, u);
    var store :=
      if k !in s then s[k := Membership(true, false)]
      else if !s[k].isActive then s[k := s[k].(isActive := true)]
      else s;
    AddOutcome(store, true, if addedBy.Some? then {u} else {}, ActiveMembers(store, c) - {u})
  }

  /** What `remove_member` changes and whom it notifies. */
  datatype RemoveOutcome = RemoveOutcome(store: Store, success: bool, notified: set<Uuid>)

  /** `remove_member(u)`: soft-deletes `u`'s active row and notifies `u`; without an active row,
      reports failure and changes nothing. */
  function RemoveMember(s: Store, c: Uuid, u: Uuid): (r: RemoveOutcome)
    ensures r.success <==> CanMessage(s, c, u)
    ensures !r.success ==> r.store == s && r.notified == {}
    ensures r.success ==> r.store == s[(c, u) := Membership(false, s[(c, u)].isAdmin)] && r.notified == {u}
    ensures !CanMessage(r.store, c, u)
    ensures ActiveMembers(r.store, c) == ActiveMembers(s, c) - {u}
  {
    if !CanMessage(s, c, u) then RemoveOutcome(s, false, {})
    else RemoveOutcome(s[(c, u) := s[(c, u)].(isActive := false)], true, {u})
  }

  /** `promote_to_admin(u)`: sets the admin flag on `u`'s row if it is active. */
  function PromoteToAdmin(s: Store, c: Uuid, u: Uuid): (r: Store)
    ensures r.Keys == s.Keys
    ensures forall k | k in s && k != (c, u) :: r[k] == s[k]
    ensures (c, u) in s && !s[(c, u)].isActive ==> r[(c, u)] == s[(c, u)]
    ensures IsUserAdmin(r, c, u) <==> CanMessage(s, c, u)
    ensures ActiveMembers(r, c) == ActiveMembers(s, c)
  {
    if CanMessage(s, c, u) then s[(c, u) := s[(c, u)].(isAdmin := true)] else s
  }

  /** `demote_admin(u)`: clears the admin flag on `u`'s active row unless `u` is the sole active admin. */
  function DemoteAdmin(s: Store, c: Uuid, u: Uuid): (r: Store)
    ensures r.Keys == s.Keys
    ensures forall k | k in s && k != (c, u) :: r[k] == s[k]
    ensures (c, u) in s && !s[(c, u)].isActive ==> r[(c, u)] == s[(c, u)]
    ensures ActiveAdmins(r, c) == if CanRemoveAdmin(s, c, u) then ActiveAdmins(s, c) - {u} else ActiveAdmins(s, c)
    ensures ActiveMembers(r, c) == ActiveMembers(s, c)
  {
    if CanRemoveAdmin(s, c, u) && CanMessage(s, c, u) then s[(c, u) := s[(c, u)].(isAdmin := false)] else s
  }

  /** The last-admin guard: demotion never leaves a chat that had an active admin without one. */
  lemma DemoteKeepsAnAdmin(s: Store, c: Uuid, u: Uuid)
    requires |ActiveAdmins(s, c)| >= 1
    ensures |ActiveAdmins(DemoteAdmin(s, c, u), c)| >= 1
  {
    var a := ActiveAdmins(s, c);
    if CanRemoveAdmin(s, c, u) && u in a {
      assert a != {u};
      var v :| v in a && v != u;
      assert v in a - {u};
    }
  }

  /** Demotion is refused exactly for the sole active admin; then nothing changes. */
  lemma DemoteSoleAdminRefused(s: Store, c: Uuid, u: Uuid)
    requires ActiveAdmins(s, c) == {u}
    ensures DemoteAdmin(s, c, u) == s
    ensures IsUserAdmin(DemoteAdmin(s, c, u), c, u)
  {
  }

  /** Soft removal followed by re-adding restores `u`'s row exactly, admin flag included,
      and never adds a second row. */
  lemma {:induction false} RemoveThenAdd(s: Store, c: Uuid, u: Uuid, addedBy: Option<Uuid>)
    ensures var s' := AddMember(RemoveMember(s, c, u).store, c, u, addedBy).store;
      && CanMessage(s', c, u)
      && s'.Keys == s.Keys + {(c, u)}
      && (CanMessage(s, c, u) ==> s' == s)
  {
    var removed := RemoveMember(s, c, u).store;
    var s' := AddMember(removed, c, u, addedBy).store;
    if CanMessage(s, c, u) {
      assert s'.Keys == s.Keys;
      forall k | k in s ensures s'[k] == s[k] {
      }
    }
  }

  /** Adding an already active member changes no row. */
  lemma AddActiveMemberUnchanged(s: Store, c: Uuid, u: Uuid, addedBy: Option<Uuid>)
    requires CanMessage(s, c, u)
    ensures AddMember(s, c, u, addedBy).store == s
  {
  }

  /** The member count moves by one exactly when membership of `u` changes. */
  lemma MemberCountAfterAdd(s: Store, c: Uuid, u: Uuid, addedBy: Option<Uuid>)
    ensures MemberCount(AddMember(s, c, u, addedBy).store, c) ==
            MemberCount(s, c) + (if CanMessage(s, c, u) then 0 else 1)
    ensures IsPrivate(AddMember(s, c, u, addedBy).store, c) <==>
            MemberCount(s, c) + (if CanMessage(s, c, u) then 0 else 1) <= 2
  {
  }

  lemma MemberCountAfterRemove(s: Store, c: Uuid, u: Uuid)
    ensures MemberCount(RemoveMember(s, c, u).store, c) ==
            MemberCount(s, c) - (if CanMessage(s, c, u) then 1 else 0)
    ensures IsPrivate(s, c) ==> IsPrivate(RemoveMember(s, c, u).store, c)
  {
  }

  /** `remove_member` consults no admin guard: removing the sole active admin succeeds and
      leaves the chat with no active admin, unlike `demote_admin`. */
  lemma RemoveMemberBypassesAdminGuard(s: Store, c: Uuid, u: Uuid)
    requires ActiveAdmins(s, c) == {u}
    ensures RemoveMember(s, c, u).success
    ensures ActiveAdmins(RemoveMember(s, c, u).store, c) == {}
  {
    var r := RemoveMember(s, c, u).store;
    assert u in ActiveAdmins(s, c);
    assert forall v :: v in ActiveAdmins(r, c) ==> v in ActiveAdmins(s, c) && v != u;
  }

  /** Stores that agree on the rows of chat `d` have the same members and admins there. */
  lemma AgreeOnChat(s: Store, t: Store, d: Uuid)
    requires forall v :: (d, v) in t <==> (d, v) in s
    requires forall v | (d, v) in s :: t[(d, v)] == s[(d, v)]
    ensures ActiveMembers(t, d) == ActiveMembers(s, d)
    ensures ActiveAdmins(t, d) == ActiveAdmins(s, d)
  {
  }

  /** Operations on chat `c` leave the membership of every other chat as it was. */
  lemma OtherChatsUnaffected(s: Store, c: Uuid, d: Uuid, u: Uuid, addedBy: Option<Uuid>)
    requires c != d
    ensures ActiveMembers(AddMember(s, c, u, addedBy).store, d) == ActiveMembers(s, d)
    ensures ActiveMembers(RemoveMember(s, c, u).store, d) == ActiveMembers(s, d)
    ensures ActiveAdmins(PromoteToAdmin(s, c, u), d) == ActiveAdmins(s, d)
    ensures ActiveAdmins(DemoteAdmin(s, c, u), d) == ActiveAdmins(s, d)
  {
    AgreeOnChat(s, AddMember(s, c, u, addedBy).store, d);
    AgreeOnChat(s, RemoveMember(s, c, u).store, d);
    AgreeOnChat(s, PromoteToAdmin(s, c, u), d);
    AgreeOnChat(s, DemoteAdmin(s, c, u), d);
  }
}

=== FILE: chat_views.dfy ===
/** The REST endpoints of chat/views.py: which chats and messages a user may list, chat creation,
    the membership actions, and the two message-creation paths. */
module ChatViews {
  import opened Wrappers
  import opened Uuids
  import opened ChatTypes
  import opened ChatModel
  import opened MessageModel
  import opened Ordering

  datatype ViewError = NotFound | PermissionDenied | ServerError

  /** `ChatViewSet.get_queryset`: the chats where the requester's one membership row is active.
      A set, so the `distinct()` holds by construction. */
  function VisibleChats(chats: ChatTable, s: Store, u: Uuid): (r: set<Uuid>)
    ensures forall c :: c in r <==> c in chats && (c, u) in s && s[(c, u)].isActive
  {
    set c | c in chats && CanMessage(s, c, u)
  }

  /** Foreign-key integrity: every membership row belongs to an existing chat. */
  ghost predicate RowsReferToChats(chats: ChatTable, s: Store) {
    forall k | k in s :: k.0 in chats
  }

  /** `ChatViewSet.perform_create`: saves the chat with the requester as creator, then
      `create_creator_membership`. `freshId` is the primary key the new row gets. Every field of
      `ChatSerializer` is read-only, so the request body sets nothing: the other columns take their
      defaults (no name, active, private). */
  function PerformCreate(chats: ChatTable, s: Store, requester: Uuid, freshId: Uuid): (r: (ChatTable, Store))
    requires freshId !in chats && RowsReferToChats(chats, s)
    ensures r.0.Keys == chats.Keys + {freshId}
    ensures forall c | c in chats :: r.0[c] == chats[c]
    ensures r.0[freshId].creator == Some(requester)
    ensures var c := r.0[freshId];
      c.id == freshId && c.name.None? && c.isActive && ChatTypes.Value(c.chatType) == "private"
    ensures IsUserAdmin(r.1, freshId, requester)
    ensures ActiveMembers(r.1, freshId) == {requester}
    ensures IsPrivate(r.1, freshId)
    ensures forall k | k in s :: k in r.1 && r.1[k] == s[k]
    ensures RowsReferToChats(r.0, r.1)
    ensures freshId in VisibleChats(r.0, r.1, requester)
  {
    var chat := Chat(freshId, None, Some(requester), true, Private);
    assert (freshId, requester) !in s;
    var store := CreateCreatorMembership(s, chat);
    assert forall u :: (freshId, u) in s ==> false;
    (chats[freshId := chat], store)
  }

  /** The `add_member` action: the chat is looked up among the requester's visible chats and the user
      by id (404 otherwise); the response carries `add_member`'s result. */
  function AddMemberAction(chats: ChatTable, s: Store, users: set<Uuid>, requester: Uuid, pk: Uuid, userId: Option<Uuid>): (r: Result<AddOutcome, ViewError>)
    ensures r.Failure? <==> pk !in VisibleChats(chats, s, requester) || userId.None? || userId.value !in users
    ensures r.Failure? ==> r.error == NotFound
    ensures r.Success? ==> CanMessage(s, pk, requester) && r.value == AddMember(s, pk, userId.value, Some(requester))
    ensures r.Success? ==> r.value.success && CanMessage(r.value.store, pk, userId.value)
  {
    if pk !in VisibleChats(chats, s, requester) || userId.None? || userId.value !in users then Failure(NotFound)
    else Success(AddMember(s, pk, userId.value, Some(requester)))
  }

  /** The `remove_member` action, with the same lookups as `add_member`. */
  function RemoveMemberAction(chats: ChatTable, s: Store, users: set<Uuid>, requester: Uuid, pk: Uuid, userId: Option<Uuid>): (r: Result<RemoveOutcome, ViewError>)
    ensures r.Failure? <==> pk !in VisibleChats(chats, s, requester) || userId.None? || userId.value !in users
    ensures r.Failure? ==> r.error == NotFound
    ensures r.Success? ==> CanMessage(s, pk, requester) && r.value == RemoveMember(s, pk, userId.value)
    ensures r.Success? ==> (r.value.success <==> CanMessage(s, pk, userId.value))
  {
    if pk !in VisibleChats(chats, s, requester) || userId.None? || userId.value !in users then Failure(NotFound)
    else Success(RemoveMember(s, pk, userId.value))
  }

  /** A message is listed for `u` when its chat has an active row of `u`, and, with a `chat` query
      parameter, when it belongs to that chat. */
  predicate ListedFor(s: Store, u: Uuid, chatParam: Option<Uuid>, m: Message) {
    m.chat.Some? && CanMessage(s, m.chat.value, u) && (chatParam.Some? ==> m.chat == chatParam)
  }

  /** `MessageViewSet.get_queryset`: the member's messages ordered by `sent_at`, then narrowed to the
      `chat` parameter when one is given. */
  function VisibleMessages(rows: seq<Message>, s: Store, u: Uuid, chatParam: Option<Uuid>): (r: seq<Message>)
    ensures SortedBy(r, SentAt)
    ensures forall m :: multiset(r)[m] == if ListedFor(s, u, chatParam, m) then multiset(rows)[m] else 0
    ensures forall m | m in r :: m.chat.Some? && CanMessage(s, m.chat.value, u)
    ensures chatParam.Some? ==> forall m | m in r :: m.chat == chatParam
  {
    var member := (m: Message) => m.chat.Some? && CanMessage(s, m.chat.value, u);
    var ordered := SortBy(Filter(rows, member), SentAt);
    assert forall m | m in ordered :: member(m) by {
      forall m | m in ordered ensures member(m) {
        assert m in multiset(ordered);
      }
    }
    if chatParam.None? then ordered
    else
      var inChat := (m: Message) => m.chat == chatParam;
      FilterPreservesSorted(ordered, inChat, SentAt);
      Filter(ordered, inChat)
  }

  /** `MessageViewSet.perform_create`: a missing `chat` in the validated data raises; a requester who
      cannot message the chat is refused; otherwise one row is saved with the requester as sender
      and, since the serializer accepts neither, no voice and no forwarded message. */
  function CreateMessage(t: MessageTable, s: Store, requester: Uuid, d: Draft, freshId: Uuid): (r: Result<(MessageTable, Message), ViewError>)
    requires IdFree(t, freshId)
    ensures r.Failure? <==> d.chat.None? || !CanMessage(s, d.chat.value, requester)
    ensures r.Failure? && d.chat.Some? ==> r.error == PermissionDenied
    ensures r.Success? ==> && r.value.0.rows == t.rows + [r.value.1] && r.value.1.id == freshId
                           && r.value.1.sender == Some(requester) && r.value.1.chat == d.chat
                           && r.value.1.content == d.content && r.value.1.voice.None?
    ensures r.Success? ==> r.value.1.forwardFrom.None? && r.value.1.replyTo == d.replyTo && r.value.1.isEdited == d.isEdited
    ensures r.Success? && MessageModel.Valid(t) ==> MessageModel.Valid(r.value.0)
  {
    if d.chat.None? then Failure(ServerError)
    else if !CanMessage(s, d.chat.value, requester) then Failure(PermissionDenied)
    else Success(Create(t, freshId, d.(voice := None, forwardFrom := None), Some(requester)))
  }

  /** `MessageCreateView.perform_create`: 404 for an unknown chat of the URL, refusal for a requester who
      cannot message it, otherwise one row in that chat with the requester as sender, and no voice
      and no forwarded message. */
  function CreateInChat(chats: ChatTable, t: MessageTable, s: Store, requester: Uuid, urlChat: Uuid, d: Draft, freshId: Uuid): (r: Result<(MessageTable, Message), ViewError>)
    requires IdFree(t, freshId)
    ensures urlChat !in chats ==> r == Failure(NotFound)
    ensures urlChat in chats && !CanMessage(s, urlChat, requester) ==> r == Failure(PermissionDenied)
    ensures r.Success? <==> urlChat in chats && CanMessage(s, urlChat, requester)
    ensures r.Success? ==> && r.value.0.rows == t.rows + [r.value.1] && r.value.1.id == freshId
                           && r.value.1.sender == Some(requester) && r.value.1.chat == Some(urlChat)
                           && r.value.1.content == d.content && r.value.1.voice.None?
    ensures r.Success? ==> r.value.1.forwardFrom.None? && r.value.1.replyTo == d.replyTo && r.value.1.isEdited == d.isEdited
  {
    if urlChat !in chats then Failure(NotFound)
    else if !CanMessage(s, urlChat, requester) then Failure(PermissionDenied)
    else Success(Create(t, freshId, d.(chat := Some(urlChat), voice := None, forwardFrom := None), Some(requester)))
  }

  /** The message list is not limited to the requester's own messages: a message another user sent
      to a chat where the requester is active is listed for the requester. */
  lemma OthersMessagesListed(rows: seq<Message>, s: Store, requester: Uuid, m: Message)
    requires m in rows && m.sender != Some(requester)
    requires m.chat.Some? && CanMessage(s, m.chat.value, requester)
    ensures m in VisibleMessages(rows, s, requester, None)
    ensures m in VisibleMessages(rows, s, requester, m.chat)
  {
    assert multiset(rows)[m] > 0;
    assert multiset(VisibleMessages(rows, s, requester, None))[m] > 0;
    assert multiset(VisibleMessages(rows, s, requester, m.chat))[m] > 0;
  }

  /** A message a member posts through the chat URL is listed back to that member. */
  lemma PostedMessageIsListed(chats: ChatTable, t: MessageTable, s: Store, requester: Uuid, urlChat: Uuid, d: Draft, freshId: Uuid)
    requires IdFree(t, freshId)
    requires CreateInChat(chats, t, s, requester, urlChat, d, freshId).Success?
    ensures var (t', m) := CreateInChat(chats, t, s, requester, urlChat, d, freshId).value;
      m in VisibleMessages(t'.rows, s, requester, Some(urlChat))
  {
    var (t', m) := CreateInChat(chats, t, s, requester, urlChat, d, freshId).value;
    assert t'.rows[|t.rows|] == m;
    assert multiset(t'.rows)[m] > 0;
    assert multiset(VisibleMessages(t'.rows, s, requester, Some(urlChat)))[m] > 0;
  }

  /** Joining a chat makes it, and its messages, visible; leaving hides them again. */
  lemma MembershipControlsVisibility(chats: ChatTable, s: Store, c: Uuid, u: Uuid, addedBy: Option<Uuid>, rows: seq<Message>)
    requires c in chats
    ensures c in VisibleChats(chats, AddMember(s, c, u, addedBy).store, u)
    ensures c !in VisibleChats(chats, RemoveMember(s, c, u).store, u)
    ensures forall m | m in VisibleMessages(rows, RemoveMember(s, c, u).store, u, None) :: m.chat != Some(c)
  {
  }
}

=== FILE: gateway.dfy ===
/** The real-time chat gateway (`ChatConsumer` of chat/consumers.py) as a sequential state machine.

    The channel layer is a registry from group names to the channel names subscribed to them;
    `group_send` followed by each subscriber's `chat_message` handler is modelled as appending the
    stored message to the outbox of every channel in the group at that moment. */
module Gateway {
  import opened Wrappers
  import opened Uuids
  import opened ChatModel
  import opened MessageModel

  /** `self.channel_name`: the channel layer's name for one connection. */
  type SessionId = string

  /** The connection context bound at connect time: the chat of the route, the user of the scope,
      and whether the server has closed the socket. */
  datatype Session = Session(chat: Uuid, user: Uuid, closed: bool)

  /** An inbound frame after JSON decoding: the optional `message` and `voice` keys. */
  datatype Frame = Frame(message: Option<string>, voice: Option<Blob>)

  datatype State = State(
    chats: ChatTable,
    members: Store,
    table: MessageTable,
    groups: map<string, set<SessionId>>,
    sessions: map<SessionId, Session>,
    outbox: map<SessionId, seq<Message>>)

  /** What one inbound frame did, in order. */
  datatype Effect = Append(m: Message) | Publish(group: string, m: Message) | CloseSession

  datatype Outcome = Ignored | ChatMissing | Rejected | Broadcast

  datatype Step = Step(state: State, effects: seq<Effect>, outcome: Outcome)

  /** `f'chat_{chat_id}'`. */
  function GroupName(c: Uuid): string {
    "chat_" + Text(c)
  }

  /** Distinct chats have distinct groups, so no frame is ever published into another chat's group. */
  lemma GroupNameInjective(a: Uuid, b: Uuid)
    requires GroupName(a) == GroupName(b)
    ensures a == b
  {
    assert GroupName(a)[5..] == Text(a);
    assert GroupName(b)[5..] == Text(b);
    TextInjective(a, b);
  }

  function Subscribers(groups: map<string, set<SessionId>>, g: string): set<SessionId> {
    if g in groups then groups[g] else {}
  }

  function Outbox(st: State, sid: SessionId): seq<Message> {
    if sid in st.outbox then st.outbox[sid] else []
  }

  /** Python truthiness of the two frame fields: absent and empty are both false. */
  predicate HasText(f: Frame) { f.message.Some? && |f.message.value| > 0 }
  predicate HasVoice(f: Frame) { f.voice.Some? && |f.voice.value| > 0 }

  /** `group_send` of `m` to a group with subscribers `subs`, each of which runs `chat_message`
      and writes `m` to its client. */
  function GroupSend(outbox: map<SessionId, seq<Message>>, subs: set<SessionId>, m: Message): (r: map<SessionId, seq<Message>>)
    ensures r.Keys == outbox.Keys + subs
    ensures forall sid | sid in subs :: r[sid] == (if sid in outbox then outbox[sid] else []) + [m]
    ensures forall sid | sid in outbox && sid !in subs :: r[sid] == outbox[sid]
  {
    map sid | sid in outbox.Keys + subs ::
      (if sid in outbox then outbox[sid] else []) + (if sid in subs then [m] else [])
  }

  /** `connect`: joins the chat's group and accepts, with no membership check. */
  function Connect(st: State, sid: SessionId, chat: Uuid, user: Uuid): (r: State)
    requires sid !in st.sessions
    ensures Subscribers(r.groups, GroupName(chat)) == Subscribers(st.groups, GroupName(chat)) + {sid}
    ensures forall g | g != GroupName(chat) :: Subscribers(r.groups, g) == Subscribers(st.groups, g)
    ensures r.sessions == st.sessions[sid := Session(chat, user, false)]
    ensures Outbox(r, sid) == []
    ensures forall s | s != sid :: Outbox(r, s) == Outbox(st, s)
    ensures r.chats == st.chats && r.members == st.members && r.table == st.table
  {
    var g := GroupName(chat);
    st.(groups := st.groups[g := Subscribers(st.groups, g) + {sid}],
        sessions := st.sessions[sid := Session(chat, user, false)],
        outbox := st.outbox[sid := []])
  }

  /** `disconnect`: `group_discard` of the session from its chat's group; the socket is closed. */
  function Disconnect(st: State, sid: SessionId): (r: State)
    requires sid in st.sessions
    ensures var g := GroupName(st.sessions[sid].chat);
      && Subscribers(r.groups, g) == Subscribers(st.groups, g) - {sid}
      && forall h | h != g :: Subscribers(r.groups, h) == Subscribers(st.groups, h)
    ensures r.sessions == st.sessions[sid := st.sessions[sid].(closed := true)]
    ensures r.outbox == st.outbox
    ensures r.chats == st.chats && r.members == st.members && r.table == st.table
  {
    var g := GroupName(st.sessions[sid].chat);
    st.(groups := if g in st.groups then st.groups[g := st.groups[g] - {sid}] else st.groups,
        sessions := st.sessions[sid := st.sessions[sid].(closed := true)])
  }

  /** `receive` of one frame on session `sid`; `freshId` is the primary key the new row would get.
      The runtime delivers frames only to an open connection, so the session is not closed. */
  function Receive(st: State, sid: SessionId, f: Frame, freshId: Uuid): (r: Step)
    requires sid in st.sessions && !st.sessions[sid].closed
    requires IdFree(st.table, freshId)
    // An empty frame is dropped before anything is looked up.
    ensures !HasText(f) && !HasVoice(f) ==> r == Step(st, [], Ignored)
    // Otherwise a missing chat raises before any effect.
    ensures (HasText(f) || HasVoice(f)) && st.sessions[sid].chat !in st.chats ==>
              r == Step(st, [], ChatMissing)
    // A sender who cannot message the chat is disconnected; nothing is stored or published.
    ensures r.outcome == Rejected <==>
              (HasText(f) || HasVoice(f)) && st.sessions[sid].chat in st.chats &&
              !CanMessage(st.members, st.sessions[sid].chat, st.sessions[sid].user)
    // A non-empty frame from an active member of an existing chat is always stored and published.
    ensures r.outcome == Broadcast <==>
              (HasText(f) || HasVoice(f)) && st.sessions[sid].chat in st.chats &&
              CanMessage(st.members, st.sessions[sid].chat, st.sessions[sid].user)
    ensures r.outcome == Rejected ==>
              && r.effects == [CloseSession]
              && r.state == st.(sessions := st.sessions[sid := st.sessions[sid].(closed := true)])
    // Otherwise exactly one row is appended, then published once to the session's group.
    ensures r.outcome == Broadcast ==> |r.state.table.rows| == |st.table.rows| + 1
    ensures r.outcome == Broadcast ==>
              var s := st.sessions[sid];
              var m := r.state.table.rows[|st.table.rows|];
              && r.state.table.rows == st.table.rows + [m]
              && m.id == freshId && m.chat == Some(s.chat) && m.sender == Some(s.user)
              && m.content == f.message && m.voice == f.voice
              && m.replyTo.None? && m.forwardFrom.None? && !m.isEdited
              && r.effects == [Append(m), Publish(GroupName(s.chat), m)]
              && r.state.outbox == GroupSend(st.outbox, Subscribers(st.groups, GroupName(s.chat)), m)
              && r.state.groups == st.groups && r.state.sessions == st.sessions
              && r.state.members == st.members && r.state.chats == st.chats
    ensures r.outcome != Broadcast ==> r.state.table == st.table && r.state.outbox == st.outbox
  {
    var s := st.sessions[sid];
    if !HasText(f) && !HasVoice(f) then Step(st, [], Ignored)
    else if s.chat !in st.chats then Step(st, [], ChatMissing)
    else if !CanMessage(st.members, s.chat, s.user) then
      Step(st.(sessions := st.sessions[sid := s.(closed := true)]), [CloseSession], Rejected)
    else
      var (table, m) := Create(st.table, freshId, Draft(Some(s.chat), f.message, f.voice, None, None, false), Some(s.user));
      var g := GroupName(s.chat);
      Step(st.(table := table, outbox := GroupSend(st.outbox, Subscribers(st.groups, g), m)),
           [Append(m), Publish(g, m)], Broadcast)
  }

  /** `box` lists rows of `rows` in strictly increasing `sent_at`. */
  ghost predicate OrderedBox(box: seq<Message>, rows: seq<Message>) {
    && (forall i, j | 0 <= i < j < |box| :: box[i].sentAt < box[j].sentAt)
    && (forall i | 0 <= i < |box| :: box[i] in rows)
  }

  /** Every outbox lists messages of the table in strictly increasing `sent_at`: each subscriber
      sees a chat's messages in the order the table stored them. */
  ghost predicate InStoreOrder(outbox: map<SessionId, seq<Message>>, rows: seq<Message>) {
    forall sid | sid in outbox :: OrderedBox(outbox[sid], rows)
  }

  /** Every subscribed channel is a known session, subscribed to its own chat's group. */
  ghost predicate SubscribedToOwnGroup(groups: map<string, set<SessionId>>, sessions: map<SessionId, Session>) {
    forall g, sid | g in groups && sid in groups[g] :: sid in sessions && GroupName(sessions[sid].chat) == g
  }

  /** The gateway invariant: the table is valid, every subscribed channel is a known session subscribed
      to its own chat's group, every session has an outbox, and outboxes follow store order. */
  ghost predicate Valid(st: State) {
    && MessageModel.Valid(st.table)
    && SubscribedToOwnGroup(st.groups, st.sessions)
    && st.outbox.Keys == st.sessions.Keys
    && InStoreOrder(st.outbox, st.table.rows)
  }

  lemma ConnectPreservesValid(st: State, sid: SessionId, chat: Uuid, user: Uuid)
    requires Valid(st) && sid !in st.sessions
    ensures Valid(Connect(st, sid, chat, user))
  {
  }

  lemma DisconnectPreservesValid(st: State, sid: SessionId)
    requires Valid(st) && sid in st.sessions
    ensures Valid(Disconnect(st, sid))
  {
  }

  /** An ordered outbox stays ordered when the table grows. */
  lemma OrderedBoxGrows(box: seq<Message>, rows: seq<Message>, m: Message)
    requires OrderedBox(box, rows)
    ensures OrderedBox(box, rows + [m])
  {
    forall i | 0 <= i < |box| ensures box[i] in rows + [m] {
      assert box[i] in rows;
    }
  }

  /** Appending a message newer than every stored row to an ordered outbox keeps it ordered. */
  lemma OrderedBoxAppend(box: seq<Message>, rows: seq<Message>, m: Message)
    requires OrderedBox(box, rows)
    requires forall i | 0 <= i < |rows| :: rows[i].sentAt < m.sentAt
    ensures OrderedBox(box + [m], rows + [m])
  {
    OrderedBoxGrows(box, rows, m);
    var b := box + [m];
    forall i | 0 <= i < |box| ensures box[i].sentAt < m.sentAt {
      var k :| 0 <= k < |rows| && rows[k] == box[i];
    }
    forall i, j | 0 <= i < j < |b| ensures b[i].sentAt < b[j].sentAt {
      assert b[i] == box[i];
      if j < |box| {
        assert b[j] == box[j];
      }
    }
  }

  /** Publishing a message newer than every stored row keeps each outbox in store order. */
  lemma GroupSendInStoreOrder(outbox: map<SessionId, seq<Message>>, subs: set<SessionId>, rows: seq<Message>, m: Message)
    requires subs <= outbox.Keys
    requires InStoreOrder(outbox, rows)
    requires forall i | 0 <= i < |rows| :: rows[i].sentAt < m.sentAt
    ensures InStoreOrder(GroupSend(outbox, subs, m), rows + [m])
  {
    var r := GroupSend(outbox, subs, m);
    forall sid | sid in r ensures OrderedBox(r[sid], rows + [m]) {
      if sid in subs {
        OrderedBoxAppend(outbox[sid], rows, m);
      } else {
        OrderedBoxGrows(outbox[sid], rows, m);
      }
    }
  }

  /** Storing a message newer than every row and publishing it to one group keeps the invariant. */
  lemma BroadcastPreservesValid(st: State, table: MessageTable, m: Message, g: string)
    requires Valid(st) && MessageModel.Valid(table)
    requires table.rows == st.table.rows + [m]
    requires forall i | 0 <= i < |st.table.rows| :: st.table.rows[i].sentAt < m.sentAt
    ensures Valid(st.(table := table, outbox := GroupSend(st.outbox, Subscribers(st.groups, g), m)))
  {
    var subs := Subscribers(st.groups, g);
    assert subs <= st.outbox.Keys;
    var out := GroupSend(st.outbox, subs, m);
    assert out.Keys == st.outbox.Keys;
    GroupSendInStoreOrder(st.outbox, subs, st.table.rows, m);
  }

  lemma ReceivePreservesValid(st: State, sid: SessionId, f: Frame, freshId: Uuid)
    requires Valid(st) && sid in st.sessions && !st.sessions[sid].closed && IdFree(st.table, freshId)
    ensures Valid(Receive(st, sid, f, freshId).state)
  {
    var s := st.sessions[sid];
    if (HasText(f) || HasVoice(f)) && s.chat in st.chats && CanMessage(st.members, s.chat, s.user) {
      var (table, m) := Create(st.table, freshId, Draft(Some(s.chat), f.message, f.voice, None, None, false), Some(s.user));
      BroadcastPreservesValid(st, table, m, GroupName(s.chat));
    }
  }

  /** `disconnect` is idempotent. */
  lemma DisconnectIdempotent(st: State, sid: SessionId)
    requires sid in st.sessions
    ensures Disconnect(Disconnect(st, sid), sid) == Disconnect(st, sid)
  {
    var once := Disconnect(st, sid);
    var g := GroupName(st.sessions[sid].chat);
    if g in st.groups {
      assert once.groups[g] - {sid} == once.groups[g];
      assert once.groups[g := once.groups[g] - {sid}] == once.groups;
    }
  }

  /** `connect` never consults membership: the subscription is the same whoever is a member. */
  lemma ConnectIgnoresMembership(st: State, other: Store, sid: SessionId, chat: Uuid, user: Uuid)
    requires sid !in st.sessions
    ensures Connect(st.(members := other), sid, chat, user) == Connect(st, sid, chat, user).(members := other)
  {
  }

  /** Two sessions on chat X, one of them an active member, and that member sends `"hi"`: one row is
      stored and both sessions receive it with content `"hi"`. */
  lemma ScenarioBothSubscribersReceive(st: State, a: SessionId, b: SessionId, freshId: Uuid)
    requires a in st.sessions && b in st.sessions && !st.sessions[a].closed
    requires a in Subscribers(st.groups, GroupName(st.sessions[a].chat))
    requires b in Subscribers(st.groups, GroupName(st.sessions[a].chat))
    requires st.sessions[a].chat in st.chats
    requires CanMessage(st.members, st.sessions[a].chat, st.sessions[a].user)
    requires IdFree(st.table, freshId)
    ensures var r := Receive(st, a, Frame(Some("hi"), None), freshId);
      && |r.state.table.rows| == |st.table.rows| + 1
      && Outbox(r.state, a) == Outbox(st, a) + [r.state.table.rows[|st.table.rows|]]
      && Outbox(r.state, b) == Outbox(st, b) + [r.state.table.rows[|st.table.rows|]]
      && r.state.table.rows[|st.table.rows|].content == Some("hi")
  {
    var f := Frame(Some("hi"), None);
    assert HasText(f);
  }

  /** A session that disconnected misses later messages, and a fresh session of the same user
      gets no backlog. */
  lemma ScenarioNoRetroactiveDelivery(st: State, a: SessionId, b: SessionId, b2: SessionId, f: Frame, freshId: Uuid)
    requires Valid(st)
    requires a in st.sessions && b in st.sessions && a != b && b2 != a && b2 != b && b2 !in st.sessions
    requires !st.sessions[a].closed
    requires IdFree(st.table, freshId)
    ensures var left := Disconnect(st, b);
      var sent := Receive(left, a, f, freshId).state;
      var back := Connect(sent, b2, st.sessions[b].chat, st.sessions[b].user);
      && Outbox(sent, b) == Outbox(st, b)
      && Outbox(back, b2) == []
  {
    var left := Disconnect(st, b);
    DisconnectPreservesValid(st, b);
    var r := Receive(left, a, f, freshId);
    if r.outcome == Broadcast {
      var g := GroupName(left.sessions[a].chat);
      assert b !in Subscribers(left.groups, g);
    }
  }
}

=== FILE: message_model.dfy ===
/** The `Message` model of ticket/models.py: the append-only message table, its `sent_at`
    ordering, and the recipients chosen by `notify_chat_members`. */
module MessageModel {
  import opened Wrappers
  import opened Uuids
  import opened ChatModel
  import opened Ordering

  /** The voice payload, an opaque byte string. */
  type Blob = seq<bv8>

  datatype Message = Message(
    id: Uuid,
    chat: Option<Uuid>,
    sender: Option<Uuid>,
    content: Option<string>,
    voice: Option<Blob>,
    replyTo: Option<Uuid>,
    forwardFrom: Option<Uuid>,
    isEdited: bool,
    sentAt: nat)

  /** The fields a new message is created from; the server assigns its id and `sent_at`. The views'
      `MessageSerializer` has no `forward_from` field and only reads out `voice` (a binary field is
      not editable), so a message created through the views has neither. */
  datatype Draft = Draft(
    chat: Option<Uuid>,
    content: Option<string>,
    voice: Option<Blob>,
    replyTo: Option<Uuid>,
    forwardFrom: Option<Uuid>,
    isEdited: bool)

  /** The stored rows in insertion order, and the clock that stamps `sent_at` (`auto_now_add`). */
  datatype MessageTable = MessageTable(rows: seq<Message>, clock: nat)

  function SentAt(m: Message): int { m.sentAt }

  predicate IdFree(t: MessageTable, id: Uuid) {
    forall i | 0 <= i < |t.rows| :: t.rows[i].id != id
  }

  /** Primary keys are distinct, and `sent_at` strictly increases along the rows and stays below the clock. */
  ghost predicate Valid(t: MessageTable) {
    && (forall i, j | 0 <= i < j < |t.rows| :: t.rows[i].id != t.rows[j].id && t.rows[i].sentAt < t.rows[j].sentAt)
    && (forall i | 0 <= i < |t.rows| :: t.rows[i].sentAt < t.clock)
  }

  /** `Message.objects.create(...)`: appends one row stamped with the current clock. */
  function Create(t: MessageTable, id: Uuid, d: Draft, sender: Option<Uuid>): (r: (MessageTable, Message))
    requires IdFree(t, id)
    ensures r.0.rows == t.rows + [r.1]
    ensures r.1.id == id && r.1.sender == sender && r.1.chat == d.chat
    ensures r.1.content == d.content && r.1.voice == d.voice
    ensures r.1.replyTo == d.replyTo && r.1.forwardFrom == d.forwardFrom && r.1.isEdited == d.isEdited
    ensures forall i | 0 <= i < |t.rows| :: t.rows[i].sentAt < t.clock ==> t.rows[i].sentAt < r.1.sentAt
    ensures Valid(t) ==> Valid(r.0)
  {
    var m := Message(id, d.chat, sender, d.content, d.voice, d.replyTo, d.forwardFrom, d.isEdited, t.clock);
    (MessageTable(t.rows + [m], t.clock + 1), m)
  }

  /** `Meta.ordering = ['sent_at']`: the default order of every message query. */
  function DefaultOrder(rows: seq<Message>): (r: seq<Message>)
    ensures SortedBy(r, SentAt)
    ensures multiset(r) == multiset(rows)
  {
    SortBy(rows, SentAt)
  }

  /** On a valid table the default order is the insertion order. */
  lemma DefaultOrderOfValidTable(t: MessageTable)
    requires Valid(t)
    ensures DefaultOrder(t.rows) == t.rows
  {
    assert SortedBy(t.rows, SentAt);
    SortSortedIsIdentity(t.rows, SentAt);
  }

  /** The row with primary key `id`, if any (a foreign-key dereference). */
  function Find(rows: seq<Message>, id: Uuid): (r: Option<Message>)
    ensures r.Some? ==> r.value in rows && r.value.id == id
    ensures r.None? ==> forall i | 0 <= i < |rows| :: rows[i].id != id
  {
    if |rows| == 0 then None
    else if rows[0].id == id then Some(rows[0])
    else Find(rows[1..], id)
  }

  /** `(content or "")[:100]`: at most the first 100 characters of the content. */
  function Preview(content: Option<string>): (r: string)
    ensures |r| <= 100
    ensures r <= content.GetOr("")
    ensures |content.GetOr("")| <= 100 ==> r == content.GetOr("")
    ensures |content.GetOr("")| > 100 ==> |r| == 100
  {
    var text := content.GetOr("");
    if |text| <= 100 then text else text[..100]
  }

  /** The notifications `notify_chat_members` would create: one per recipient, all with the same description. */
  datatype NotifyPlan = NotifyPlan(recipients: set<Uuid>, description: string)

  /** `notify_chat_members`: nobody without a chat or a sender; otherwise every active member except the sender. */
  function NotifyChatMembers(s: Store, m: Message): (r: NotifyPlan)
    ensures m.chat.None? || m.sender.None? ==> r.recipients == {}
    ensures m.chat.Some? && m.sender.Some? ==>
              forall u :: u in r.recipients <==> CanMessage(s, m.chat.value, u) && u != m.sender.value
    ensures m.sender.Some? ==> m.sender.value !in r.recipients
    ensures r.description == Preview(m.content)
  {
    var description := Preview(m.content);
    if m.chat.None? || m.sender.None? then NotifyPlan({}, description)
    else
      var recipients := ActiveMembers(s, m.chat.value) - {m.sender.value};
      assert forall u :: u in recipients <==> CanMessage(s, m.chat.value, u) && u != m.sender.value by {
        forall u ensures u in recipients <==> CanMessage(s, m.chat.value, u) && u != m.sender.value {
          assert CanMessage(s, m.chat.value, u) <==> u in ActiveMembers(s, m.chat.value);
        }
      }
      NotifyPlan(recipients, description)
  }
}

=== FILE: ordering.dfy ===
/** Filtering and ordering of query results (`filter(...)`, `order_by(...)`) over rows held as sequences. */
module Ordering {

  /** Non-decreasing in `key`. */
  ghost predicate SortedBy<T>(s: seq<T>, key: T -> int) {
    forall i, j | 0 <= i < j < |s| :: key(s[i]) <= key(s[j])
  }

  /** The rows satisfying `p`, in their original order and with their multiplicities. */
  function Filter<T(!new)>(s: seq<T>, p: T -> bool): (r: seq<T>)
    ensures forall x :: x in r <==> x in s && p(x)
    ensures forall x :: multiset(r)[x] == if p(x) then multiset(s)[x] else 0
    ensures |r| <= |s|
  {
    if |s| == 0 then []
    else
      var rest := Filter(s[1..], p);
      assert s == [s[0]] + s[1..];
      if p(s[0]) then [s[0]] + rest else rest
  }

  /** Putting a row no later than the first in front keeps a sorted sequence sorted. */
  lemma ConsSorted<T>(h: T, s: seq<T>, key: T -> int)
    requires SortedBy(s, key)
    requires |s| > 0 ==> key(h) <= key(s[0])
    ensures SortedBy([h] + s, key)
  {
    var r := [h] + s;
    forall i, j | 0 <= i < j < |r| ensures key(r[i]) <= key(r[j]) {
      assert r[j] == s[j - 1];
      if i == 0 {
        assert key(s[0]) <= key(s[j - 1]);
      } else {
        assert r[i] == s[i - 1];
      }
    }
  }

  /** One insertion-sort step: `x` placed before the first row with a larger key. */
  function Insert<T(!new)>(x: T, s: seq<T>, key: T -> int): (r: seq<T>)
    requires SortedBy(s, key)
    ensures SortedBy(r, key)
    ensures multiset(r) == multiset(s) + multiset{x}
    ensures |r| == |s| + 1
    ensures r[0] == x || (|s| > 0 && r[0] == s[0])
  {
    if |s| == 0 then [x]
    else if key(x) <= key(s[0]) then
      ConsSorted(x, s, key);
      [x] + s
    else
      var tail := s[1..];
      assert SortedBy(tail, key);
      var rest := Insert(x, tail, key);
      assert s == [s[0]] + tail;
      assert |tail| > 0 ==> key(s[0]) <= key(tail[0]);
      ConsSorted(s[0], rest, key);
      [s[0]] + rest
  }

  /** An `order_by` on the integer `key`: the same rows, non-decreasing in `key`. */
  function SortBy<T(!new)>(s: seq<T>, key: T -> int): (r: seq<T>)
    ensures SortedBy(r, key)
    ensures multiset(r) == multiset(s)
  {
    if |s| == 0 then []
    else
      assert s == [s[0]] + s[1..];
      Insert(s[0], SortBy(s[1..], key), key)
  }

  /** Ordering rows that are already in key order leaves them as they are. */
  lemma {:induction false} SortSortedIsIdentity<T(!new)>(s: seq<T>, key: T -> int)
    requires SortedBy(s, key)
    ensures SortBy(s, key) == s
  {
    if |s| > 0 {
      assert SortedBy(s[1..], key);
      SortSortedIsIdentity(s[1..], key);
      assert s == [s[0]] + s[1..];
    }
  }

  /** Filtering keeps rows that were in key order in key order. */
  lemma {:induction false} FilterPreservesSorted<T(!new)>(s: seq<T>, p: T -> bool, key: T -> int)
    requires SortedBy(s, key)
    ensures SortedBy(Filter(s, p), key)
  {
    if |s| > 0 {
      var tail := s[1..];
      assert SortedBy(tail, key);
      FilterPreservesSorted(tail, p, key);
      var rest := Filter(tail, p);
      if p(s[0]) {
        if |rest| > 0 {
          assert rest[0] in tail;
          var k :| 0 <= k < |tail| && tail[k] == rest[0];
          assert key(s[0]) <= key(s[k + 1]);
        }
        ConsSorted(s[0], rest, key);
      }
    }
  }
}

=== FILE: serializers.dfy ===
/** The outbound representations of ticket/serializers.py: the message representation with its
    reply/forward details, and the chat's member count. */
module Serializers {
  import opened Wrappers
  import opened Uuids
  import opened ChatModel
  import opened MessageModel

  /** A rendered JSON value; UUIDs render as their canonical text. */
  datatype Json =
    | JNull
    | JBool(b: bool)
    | JInt(i: int)
    | JStr(s: string)
    | JBlob(bytes: Blob)
    | JObject(fields: seq<(string, Json)>)

  /** The `{"id", "sender", "content"}` summary of a referenced message. */
  datatype Detail = Detail(id: string, sender: Option<string>, content: Option<string>)

  /** The body shared by `get_reply_to_detail` and `get_forward_from_detail`, over the dereferenced
      foreign key. */
  function RefDetail(ref: Option<Message>): (r: Option<Detail>)
    ensures r.None? <==> ref.None?
    ensures r.Some? ==> r.value.id == Text(ref.value.id) && r.value.content == ref.value.content
    ensures r.Some? ==> (r.value.sender.None? <==> ref.value.sender.None?)
    ensures r.Some? && ref.value.sender.Some? ==> r.value.sender == Some(Text(ref.value.sender.value))
  {
    match ref
    case None => None
    case Some(m) =>
      Some(Detail(Text(m.id), if m.sender.Some? then Some(Text(m.sender.value)) else None, m.content))
  }

  /** Foreign-key integrity of a reference: `SET_NULL` on delete leaves no dangling id. */
  predicate Resolves(rows: seq<Message>, ref: Option<Uuid>) {
    ref.Some? ==> Find(rows, ref.value).Some?
  }

  /** `get_reply_to_detail`. */
  function ReplyToDetail(obj: Message, rows: seq<Message>): (r: Option<Detail>)
    requires Resolves(rows, obj.replyTo)
    ensures r.None? <==> obj.replyTo.None?
    ensures r.Some? ==>
              var m := Find(rows, obj.replyTo.value).value;
              && m in rows && m.id == obj.replyTo.value
              && r.value.id == Text(obj.replyTo.value) && r.value.content == m.content
              && (r.value.sender.None? <==> m.sender.None?)
              && (m.sender.Some? ==> r.value.sender == Some(Text(m.sender.value)))
  {
    if obj.replyTo.None? then None else RefDetail(Find(rows, obj.replyTo.value))
  }

  /** `get_forward_from_detail`. */
  function ForwardFromDetail(obj: Message, rows: seq<Message>): (r: Option<Detail>)
    requires Resolves(rows, obj.forwardFrom)
    ensures r.None? <==> obj.forwardFrom.None?
    ensures r.Some? ==>
              var m := Find(rows, obj.forwardFrom.value).value;
              && m in rows && m.id == obj.forwardFrom.value
              && r.value.id == Text(obj.forwardFrom.value) && r.value.content == m.content
              && (r.value.sender.None? <==> m.sender.None?)
              && (m.sender.Some? ==> r.value.sender == Some(Text(m.sender.value)))
  {
    if obj.forwardFrom.None? then None else RefDetail(Find(rows, obj.forwardFrom.value))
  }

  /** A detail names its message unambiguously: equal details come from the same referenced id. */
  lemma ReplyDetailIdentifiesReference(a: Message, b: Message, rows: seq<Message>)
    requires Resolves(rows, a.replyTo) && Resolves(rows, b.replyTo)
    requires ReplyToDetail(a, rows) == ReplyToDetail(b, rows)
    ensures a.replyTo == b.replyTo
  {
    if a.replyTo.Some? {
      TextInjective(a.replyTo.value, b.replyTo.value);
    }
  }

  lemma ForwardDetailIdentifiesReference(a: Message, b: Message, rows: seq<Message>)
    requires Resolves(rows, a.forwardFrom) && Resolves(rows, b.forwardFrom)
    requires ForwardFromDetail(a, rows) == ForwardFromDetail(b, rows)
    ensures a.forwardFrom == b.forwardFrom
  {
    if a.forwardFrom.Some? {
      TextInjective(a.forwardFrom.value, b.forwardFrom.value);
    }
  }

  function OptText(s: Option<string>): Json {
    if s.Some? then JStr(s.value) else JNull
  }

  function OptId(u: Option<Uuid>): Json {
    if u.Some? then JStr(Text(u.value)) else JNull
  }

  function DetailJson(d: Option<Detail>): Json {
    match d
    case None => JNull
    case Some(x) => JObject([("id", JStr(x.id)), ("sender", OptText(x.sender)), ("content", OptText(x.content))])
  }

  /** `MessageSerializer.Meta.fields`. */
  const MessageFields: seq<string> :=
    ["chat", "sender", "content", "voice", "reply_to", "is_edited",
     "sender_profile", "forward_from_detail", "reply_to_detail", "sent_at"]

  lemma MessageFieldsDistinct()
    ensures forall a, b | 0 <= a < b < |MessageFields| :: MessageFields[a] != MessageFields[b]
    ensures "id" !in MessageFields && "forward_from" !in MessageFields
  {
  }

  function Keys(fields: seq<(string, Json)>): (r: seq<string>)
    ensures |r| == |fields|
    ensures forall i | 0 <= i < |fields| :: r[i] == fields[i].0
  {
    if |fields| == 0 then [] else [fields[0].0] + Keys(fields[1..])
  }

  /** The value of the first field named `key`. */
  function Lookup(fields: seq<(string, Json)>, key: string): (r: Option<Json>)
  {
    if |fields| == 0 then None
    else if fields[0].0 == key then Some(fields[0].1)
    else Lookup(fields[1..], key)
  }

  /** A key that no field carries reads as absent. */
  lemma {:induction false} LookupMissing(fields: seq<(string, Json)>, key: string)
    requires key !in Keys(fields)
    ensures Lookup(fields, key) == None
  {
    if |fields| > 0 {
      assert Keys(fields) == [fields[0].0] + Keys(fields[1..]);
      LookupMissing(fields[1..], key);
    }
  }

  /** Field names that occur once each. */
  predicate DistinctKeys(fields: seq<(string, Json)>) {
    forall a, b | 0 <= a < b < |fields| :: fields[a].0 != fields[b].0
  }

  lemma {:induction false} LookupAt(fields: seq<(string, Json)>, i: nat)
    requires DistinctKeys(fields) && i < |fields|
    ensures Lookup(fields, fields[i].0) == Some(fields[i].1)
  {
    if i > 0 {
      assert fields[1..][i - 1] == fields[i];
      LookupAt(fields[1..], i - 1);
    }
  }

  /** Each field name paired with its value. */
  function Zip(names: seq<string>, values: seq<Json>): (r: seq<(string, Json)>)
    requires |names| == |values|
    ensures |r| == |names|
    ensures forall i | 0 <= i < |r| :: r[i] == (names[i], values[i])
    ensures Keys(r) == names
  {
    var r := seq(|names|, i requires 0 <= i < |names| => (names[i], values[i]));
    assert forall i | 0 <= i < |r| :: Keys(r)[i] == names[i];
    r
  }

  /** `MessageSerializer(obj).data`. `profile` is the already rendered `sender_profile`; the profile
      serializer is not part of this model. */
  function MessageRepresentation(obj: Message, rows: seq<Message>, profile: Json): (r: seq<(string, Json)>)
    requires Resolves(rows, obj.replyTo) && Resolves(rows, obj.forwardFrom)
    ensures Keys(r) == MessageFields
    ensures Lookup(r, "chat") == Some(OptId(obj.chat))
    ensures Lookup(r, "sender") == Some(OptId(obj.sender))
    ensures Lookup(r, "content") == Some(OptText(obj.content))
    ensures Lookup(r, "reply_to") == Some(OptId(obj.replyTo))
    ensures Lookup(r, "is_edited") == Some(JBool(obj.isEdited))
    ensures Lookup(r, "reply_to_detail") == Some(DetailJson(ReplyToDetail(obj, rows)))
    ensures Lookup(r, "forward_from_detail") == Some(DetailJson(ForwardFromDetail(obj, rows)))
  {
    var values := [
      OptId(obj.chat),
      OptId(obj.sender),
      OptText(obj.content),
      if obj.voice.Some? then JBlob(obj.voice.value) else JNull,
      OptId(obj.replyTo),
      JBool(obj.isEdited),
      profile,
      DetailJson(ForwardFromDetail(obj, rows)),
      DetailJson(ReplyToDetail(obj, rows)),
      JInt(obj.sentAt)];
    var r := Zip(MessageFields, values);
    MessageFieldsDistinct();
    assert DistinctKeys(r);
    LookupAt(r, 0); LookupAt(r, 1); LookupAt(r, 2); LookupAt(r, 4);
    LookupAt(r, 5); LookupAt(r, 7); LookupAt(r, 8);
    r
  }

  /** The representation carries neither the message's own `id` nor the raw `forward_from` key. */
  lemma RepresentationOmitsIdAndForwardFrom(obj: Message, rows: seq<Message>, profile: Json)
    requires Resolves(rows, obj.replyTo) && Resolves(rows, obj.forwardFrom)
    ensures "id" !in Keys(MessageRepresentation(obj, rows, profile))
    ensures "forward_from" !in Keys(MessageRepresentation(obj, rows, profile))
    ensures Lookup(MessageRepresentation(obj, rows, profile), "id") == None
  {
    MessageFieldsDistinct();
    LookupMissing(MessageRepresentation(obj, rows, profile), "id");
  }

  /** `ChatSerializer.get_member_count`: the number of active rows of the chat. */
  function GetMemberCount(s: Store, chat: Chat): (r: nat)
    ensures r == |ActiveMembers(s, chat.id)|
    ensures r == 0 <==> forall u :: !CanMessage(s, chat.id, u)
  {
    var r := MemberCount(s, chat.id);
    assert r != 0 ==> exists u :: CanMessage(s, chat.id, u) by {
      if r != 0 {
        var u :| u in ActiveMembers(s, chat.id);
        assert CanMessage(s, chat.id, u);
      }
    }
    r
  }
}

=== FILE: ticket_views.dfy ===
/** The support-ticket endpoints of ticket/views.py: the reviewer claim-then-edit rule, the owner-only
    update, deletion, the user's ticket list and the per-ticket detail summary.

    The `Ticket` and `TicketDetail` models are not part of this model; their fields are the ones the
    views read and write. */
module TicketViews {
  import opened Wrappers
  import opened Uuids
  import opened TicketTypes
  import opened Ordering

  datatype Ticket = Ticket(
    id: Uuid,
    user: Option<Uuid>,
    reviewer: Option<Uuid>,
    title: string,
    number: nat,
    status: Option<TicketStatus>,
    category: Option<TicketCategory>,
    priority: Priority,
    isResolved: Option<bool>,
    canReply: Option<bool>,
    canUploadAttachment: Option<bool>,
    createdBy: Option<Uuid>,
    updatedBy: Option<Uuid>,
    createdAt: nat)

  datatype TicketDetail = TicketDetail(id: Uuid, ticket: Uuid, user: Option<Uuid>, message: Option<string>, createdAt: nat)

  // ---------------------------------------------------------------------------
  // AdminEditTicket.put
  // ---------------------------------------------------------------------------

  /** The request body of `AdminEditTicket.put`; absent keys are `None`. */
  datatype EditRequest = EditRequest(
    changeReviewer: bool,
    isResolved: Option<bool>,
    status: Option<TicketStatus>,
    canReply: Option<bool>,
    canUploadAttachment: Option<bool>)

  datatype EditReply = ClaimedReviewer | NotReviewer | Edited

  function EditStatusCode(e: EditReply): nat {
    if e == NotReviewer then 400 else 200
  }

  /** `AdminEditTicket.put`: with `change_reviewer`, a requester who is not yet the reviewer becomes it
      and nothing else changes; otherwise only the reviewer may edit, and the edit copies the four
      request values, absent ones included. */
  function AdminEditTicket(tickets: map<Uuid, Ticket>, id: Uuid, requester: Uuid, req: EditRequest): (r: (map<Uuid, Ticket>, EditReply))
    requires id in tickets
    ensures r.0.Keys == tickets.Keys
    ensures forall k | k in tickets && k != id :: r.0[k] == tickets[k]
    ensures var t := tickets[id];
      req.changeReviewer && t.reviewer != Some(requester) ==>
        r.1 == ClaimedReviewer && r.0[id] == t.(reviewer := Some(requester))
    ensures var t := tickets[id];
      !req.changeReviewer && t.reviewer != Some(requester) ==> r.1 == NotReviewer && r.0 == tickets
    ensures var t := tickets[id];
      t.reviewer == Some(requester) ==>
        && r.1 == Edited
        && r.0[id] == t.(isResolved := req.isResolved, canReply := req.canReply,
                         canUploadAttachment := req.canUploadAttachment, status := req.status)
    ensures EditStatusCode(r.1) == 200 <==> req.changeReviewer || tickets[id].reviewer == Some(requester)
  {
    var t := tickets[id];
    if req.changeReviewer && t.reviewer != Some(requester) then
      (tickets[id := t.(reviewer := Some(requester))], ClaimedReviewer)
    else if t.reviewer != Some(requester) then
      (tickets, NotReviewer)
    else
      (tickets[id := t.(isResolved := req.isResolved, canReply := req.canReply,
                        canUploadAttachment := req.canUploadAttachment, status := req.status)], Edited)
  }

  /** Only the reviewer's requests change a ticket's status or flags, and no request changes the owner. */
  lemma OnlyReviewerEdits(tickets: map<Uuid, Ticket>, id: Uuid, requester: Uuid, req: EditRequest)
    requires id in tickets
    ensures var t, t' := tickets[id], AdminEditTicket(tickets, id, requester, req).0[id];
      && t'.user == t.user
      && ((t'.status != t.status || t'.isResolved != t.isResolved || t'.canReply != t.canReply ||
           t'.canUploadAttachment != t.canUploadAttachment) ==> t.reviewer == Some(requester))
  {
  }

  /** Claim, then edit: a staff member who claims a ticket can edit it with the next request. */
  lemma ClaimThenEdit(tickets: map<Uuid, Ticket>, id: Uuid, requester: Uuid, claim: EditRequest, edit: EditRequest)
    requires id in tickets && claim.changeReviewer
    ensures var claimed := AdminEditTicket(tickets, id, requester, claim).0;
      && claimed[id].reviewer == Some(requester)
      && AdminEditTicket(claimed, id, requester, edit).1 == Edited
  {
  }

  // ---------------------------------------------------------------------------
  // TicketViewSet
  // ---------------------------------------------------------------------------

  datatype UpdateReply = UpdateNotFound | Saved | NotSaved

  /** `TicketViewSet.perform_update`: the validated changes `edit` are saved, with the requester as
      reviewer and updater, only when the requester owns the ticket. */
  function PerformUpdate(tickets: map<Uuid, Ticket>, id: Uuid, requester: Uuid, edit: Ticket -> Ticket): (r: (map<Uuid, Ticket>, UpdateReply))
    ensures r.1 == UpdateNotFound <==> id !in tickets
    ensures r.1 == Saved <==> id in tickets && tickets[id].user == Some(requester)
    ensures r.1 != Saved ==> r.0 == tickets
    ensures r.1 == Saved ==>
      && r.0.Keys == tickets.Keys
      && (forall k | k in tickets && k != id :: r.0[k] == tickets[k])
      && r.0[id].id == id && r.0[id].reviewer == Some(requester) && r.0[id].updatedBy == Some(requester)
    // Apart from the three stamped fields, the saved row is the validated edit.
    ensures r.1 == Saved ==>
      var e := edit(tickets[id]);
      r.0[id].(id := e.id, reviewer := e.reviewer, updatedBy := e.updatedBy) == e
  {
    if id !in tickets then (tickets, UpdateNotFound)
    else if tickets[id].user != Some(requester) then (tickets, NotSaved)
    else (tickets[id := edit(tickets[id]).(id := id, reviewer := Some(requester), updatedBy := Some(requester))], Saved)
  }

  /** An owner's update makes the owner the ticket's reviewer, so the owner's next staff edit goes
      through without a claim; a non-owner's update leaves every ticket as it was. */
  lemma UpdateThenEdit(tickets: map<Uuid, Ticket>, id: Uuid, requester: Uuid, edit: Ticket -> Ticket, req: EditRequest)
    requires id in tickets
    ensures var (saved, reply) := PerformUpdate(tickets, id, requester, edit);
      && (tickets[id].user == Some(requester) ==> AdminEditTicket(saved, id, requester, req).1 == Edited)
      && (tickets[id].user != Some(requester) ==> reply == NotSaved && saved == tickets)
  {
  }

  datatype DestroyReply = DestroyNotFound | Deleted | Refused

  /** `destroy`: deletes the ticket when its `can_delete()` (an opaque predicate here) allows it. */
  function Destroy(tickets: map<Uuid, Ticket>, id: Uuid, canDelete: Ticket -> bool): (r: (map<Uuid, Ticket>, DestroyReply))
    ensures r.1 == Deleted <==> id in tickets && canDelete(tickets[id])
    ensures r.1 == Deleted ==> r.0.Keys == tickets.Keys - {id} && forall k | k in r.0 :: r.0[k] == tickets[k]
    ensures r.1 != Deleted ==> r.0 == tickets
    ensures r.1 == DestroyNotFound <==> id !in tickets
  {
    if id !in tickets then (tickets, DestroyNotFound)
    else if canDelete(tickets[id]) then (tickets - {id}, Deleted)
    else (tickets, Refused)
  }

  // ---------------------------------------------------------------------------
  // UserTicketList.get_queryset
  // ---------------------------------------------------------------------------

  /** The query string of the user ticket list; an absent parameter is the empty string. */
  datatype TicketQuery = TicketQuery(q: string, category: string, status: string, ordering: string)

  function CreatedAt(t: Ticket): int { t.createdAt }
  function NewestFirst(t: Ticket): int { -(t.createdAt as int) }

  /** The tickets the list keeps: the requester's own, matching every non-empty parameter.
      `titleContains` stands for the case-insensitive `icontains` lookup. */
  predicate Listed(requester: Uuid, query: TicketQuery, titleContains: (string, string) -> bool, t: Ticket) {
    && t.user == Some(requester)
    && (query.q != "" ==> titleContains(t.title, query.q))
    && (query.category != "" ==> CategoryMatches(t.category, query.category))
    && (query.status != "" ==> StatusMatches(t.status, query.status))
  }

  /** The `ordering` parameter of the user ticket list: `created_at` sorts oldest first, `-created_at`
      newest first, and anything else keeps the rows as they are. */
  function OrderTickets(rows: seq<Ticket>, ordering: string): (r: seq<Ticket>)
    ensures multiset(r) == multiset(rows)
    ensures ordering == "created_at" ==> SortedBy(r, CreatedAt)
    ensures ordering == "-created_at" ==> forall i, j | 0 <= i < j < |r| :: r[i].createdAt >= r[j].createdAt
    ensures ordering != "created_at" && ordering != "-created_at" ==> r == rows
  {
    if ordering == "created_at" then SortBy(rows, CreatedAt)
    else if ordering == "-created_at" then
      var r := SortBy(rows, NewestFirst);
      assert forall i, j | 0 <= i < j < |r| :: NewestFirst(r[i]) <= NewestFirst(r[j]);
      r
    else rows
  }

  /** `UserTicketList.get_queryset`: the successive `filter` calls, whose conjunction is `Listed`,
      then the optional `order_by`. */
  function UserTickets(rows: seq<Ticket>, requester: Uuid, query: TicketQuery, titleContains: (string, string) -> bool): (r: seq<Ticket>)
    ensures forall t :: multiset(r)[t] == if Listed(requester, query, titleContains, t) then multiset(rows)[t] else 0
    ensures query.ordering == "created_at" ==> SortedBy(r, CreatedAt)
    ensures query.ordering == "-created_at" ==> forall i, j | 0 <= i < j < |r| :: r[i].createdAt >= r[j].createdAt
    ensures query.ordering != "created_at" && query.ordering != "-created_at" ==>
              r == Filter(rows, t => Listed(requester, query, titleContains, t))
  {
    OrderTickets(Filter(rows, t => Listed(requester, query, titleContains, t)), query.ordering)
  }

  /** Every listed ticket is the requester's own and matches the category and status parameters. */
  lemma UserTicketsMatchQuery(rows: seq<Ticket>, requester: Uuid, query: TicketQuery, titleContains: (string, string) -> bool)
    ensures var r := UserTickets(rows, requester, query, titleContains);
      && (forall t | t in r :: t.user == Some(requester))
      && (query.category != "" ==> forall t | t in r :: CategoryMatches(t.category, query.category))
      && (query.status != "" ==> forall t | t in r :: StatusMatches(t.status, query.status))
  {
    var r := UserTickets(rows, requester, query, titleContains);
    forall t | t in r ensures Listed(requester, query, titleContains, t) {
      assert multiset(r)[t] > 0;
    }
  }

  // ---------------------------------------------------------------------------
  // TicketDetailViewSet.list
  // ---------------------------------------------------------------------------

  datatype ListReply =
    | MissingTicketParam
    | TicketNotFound
    | Summary(title: string, number: nat, status: Option<TicketStatus>, createdBy: string,
              reviewer: string, category: string, details: seq<TicketDetail>)

  function ListStatusCode(r: ListReply): nat {
    match r
    case MissingTicketParam => 400
    case TicketNotFound => 404
    case Summary(_, _, _, _, _, _, _) => 200
  }

  /** `TicketDetailViewSet.list`: 400 without a `ticket` parameter, 404 when that ticket has no details,
      otherwise the ticket's summary fields and its details. `show` is `str()` of a user and
      `fullName` the user's `full_name`, both outside this model. */
  function ListDetails(details: seq<TicketDetail>, tickets: map<Uuid, Ticket>, ticketParam: Option<Uuid>,
                       show: Uuid -> string, fullName: Uuid -> string): (r: ListReply)
    requires forall i | 0 <= i < |details| :: details[i].ticket in tickets
    ensures r == MissingTicketParam <==> ticketParam.None?
    ensures ListStatusCode(r) == 400 <==> ticketParam.None?
    ensures ListStatusCode(r) == 404 <==>
              ticketParam.Some? && forall i | 0 <= i < |details| :: details[i].ticket != ticketParam.value
    ensures r.Summary? <==> ticketParam.Some? && exists i | 0 <= i < |details| :: details[i].ticket == ticketParam.value
    ensures ticketParam.Some? ==>
              (r == TicketNotFound <==> forall i | 0 <= i < |details| :: details[i].ticket != ticketParam.value)
    ensures r.Summary? ==> ticketParam.Some? && ticketParam.value in tickets
    ensures r.Summary? ==>
              var t := tickets[ticketParam.value];
              && |r.details| > 0
              && (forall d | d in r.details :: d.ticket == ticketParam.value)
              && (forall d :: multiset(r.details)[d] == if d.ticket == ticketParam.value then multiset(details)[d] else 0)
              && r.title == t.title && r.number == t.number && r.status == t.status
              && r.createdBy == (if t.createdBy.Some? then show(t.createdBy.value) else "")
              && r.reviewer == (if t.reviewer.Some? then fullName(t.reviewer.value) else "")
              && r.category == (if t.category.Some? then CategoryValue(t.category.value) else "")
  {
    if ticketParam.None? then MissingTicketParam
    else
      var id := ticketParam.value;
      var matching := Filter(details, (d: TicketDetail) => d.ticket == id);
      if |matching| == 0 then
        assert forall i | 0 <= i < |details| :: details[i].ticket != id by {
          forall i | 0 <= i < |details| ensures details[i].ticket != id {
            assert details[i] in details;
          }
        }
        TicketNotFound
      else
        assert matching[0] in matching;
        var t := tickets[matching[0].ticket];
        Summary(t.title, t.number, t.status,
                if t.createdBy.Some? then show(t.createdBy.value) else "",
                if t.reviewer.Some? then fullName(t.reviewer.value) else "",
                if t.category.Some? then CategoryValue(t.category.value) else "",
                matching)
  }
}

=== FILE: types.dfy ===
/** The chat kind choices (chat/types.py). */
module ChatTypes {
  import opened Wrappers

  datatype ChatType = Private | Group | Channel

  /** The value stored in the database column. */
  function Value(t: ChatType): string {
    match t
    case Private => "private"
    case Group => "group"
    case Channel => "channel"
  }

  /** Reads a stored value back into a choice; a value outside the choices yields `None`. */
  function Parse(s: string): (r: Option<ChatType>)
    ensures r.Some? ==> Value(r.value) == s
    ensures r.None? ==> forall t: ChatType :: Value(t) != s
  {
    if s == "private" then Some(Private)
    else if s == "group" then Some(Group)
    else if s == "channel" then Some(Channel)
    else None
  }

  lemma ParseValue(t: ChatType)
    ensures Parse(Value(t)) == Some(t)
  {
  }
}

/** The ticket priority, status and category choices (ticket/types.py). */
module TicketTypes {
  import opened Wrappers

  datatype Priority = Low | High | Force
  datatype TicketStatus = Open | Close
  datatype TicketCategory = Technical | Course | Mentoring

  function PriorityValue(p: Priority): string {
    match p
    case Low => "low"
    case High => "high"
    case Force => "force"
  }

  function StatusValue(s: TicketStatus): string {
    match s
    case Open => "open"
    case Close => "close"
  }

  function CategoryValue(c: TicketCategory): string {
    match c
    case Technical => "technical"
    case Course => "course"
    case Mentoring => "mentoring"
  }

  function ParsePriority(s: string): (r: Option<Priority>)
    ensures r.Some? ==> PriorityValue(r.value) == s
    ensures r.None? ==> forall p: Priority :: PriorityValue(p) != s
  {
    if s == "low" then Some(Low)
    else if s == "high" then Some(High)
    else if s == "force" then Some(Force)
    else None
  }

  function ParseStatus(s: string): (r: Option<TicketStatus>)
    ensures r.Some? ==> StatusValue(r.value) == s
    ensures r.None? ==> forall t: TicketStatus :: StatusValue(t) != s
  {
    if s == "open" then Some(Open)
    else if s == "close" then Some(Close)
    else None
  }

  function ParseCategory(s: string): (r: Option<TicketCategory>)
    ensures r.Some? ==> CategoryValue(r.value) == s
    ensures r.None? ==> forall c: TicketCategory :: CategoryValue(c) != s
  {
    if s == "technical" then Some(Technical)
    else if s == "course" then Some(Course)
    else if s == "mentoring" then Some(Mentoring)
    else None
  }

  /** A query-string filter `field=value` keeps a row exactly when its stored choice has that value;
      a `NULL` column matches no value. */
  predicate StatusMatches(stored: Option<TicketStatus>, param: string) {
    stored.Some? && StatusValue(stored.value) == param
  }

  predicate CategoryMatches(stored: Option<TicketCategory>, param: string) {
    stored.Some? && CategoryValue(stored.value) == param
  }

  lemma StatusMatchesParse(stored: Option<TicketStatus>, param: string)
    ensures StatusMatches(stored, param) <==> stored.Some? && ParseStatus(param) == stored
  {
  }

  lemma CategoryMatchesParse(stored: Option<TicketCategory>, param: string)
    ensures CategoryMatches(stored, param) <==> stored.Some? && ParseCategory(param) == stored
  {
  }
}

=== FILE: uuids.dfy ===
/** Primary keys, taken to be 128-bit UUIDs. The explicit routes at chat/urls.py:19-20 and
    ticket/urls.py:18-19 take their ids through the `uuid` path converter; the other ids are
    assumed to be UUIDs. `str()` of a UUID is its canonical text, 32 lower-case hex digits
    grouped 8-4-4-4-12 by hyphens. */
module Uuids {

  function Pow16(w: nat): (r: nat)
    ensures r >= 1
  {
    if w == 0 then 1 else 16 * Pow16(w - 1)
  }

  type Uuid = n: nat | n < Pow16(32)

  function HexDigit(d: nat): (c: char)
    requires d < 16
    ensures c as int == if d < 10 then 48 + d else 87 + d
  {
    if d < 10 then (48 + d) as char else (87 + d) as char
  }

  /** The `w` lowest hex digits of `n`, most significant first. */
  function Hex(n: nat, w: nat): (s: string)
    ensures |s| == w
  {
    if w == 0 then [] else Hex(n / 16, w - 1) + [HexDigit(n % 16)]
  }

  /** Inserts the four hyphens of the canonical form into 32 hex digits. */
  function Dashed(h: string): (t: string)
    requires |h| == 32
    ensures |t| == 36
  {
    h[0..8] + "-" + h[8..12] + "-" + h[12..16] + "-" + h[16..20] + "-" + h[20..32]
  }

  /** `str(u)` for a UUID `u`. */
  function Text(u: Uuid): (t: string)
    ensures |t| == 36
  {
    Dashed(Hex(u, 32))
  }

  lemma {:induction false} HexInjective(a: nat, b: nat, w: nat)
    requires a < Pow16(w) && b < Pow16(w)
    requires Hex(a, w) == Hex(b, w)
    ensures a == b
  {
    if w > 0 {
      var ha, hb := Hex(a, w), Hex(b, w);
      assert ha[w - 1] == hb[w - 1];
      assert a % 16 == b % 16;
      assert ha[..w - 1] == Hex(a / 16, w - 1);
      assert hb[..w - 1] == Hex(b / 16, w - 1);
      HexInjective(a / 16, b / 16, w - 1);
    }
  }

  lemma DashedInjective(g: string, h: string)
    requires |g| == 32 && |h| == 32
    requires Dashed(g) == Dashed(h)
    ensures g == h
  {
    var dg, dh := Dashed(g), Dashed(h);
    assert dg[0..8] == g[0..8] && dh[0..8] == h[0..8];
    assert dg[9..13] == g[8..12] && dh[9..13] == h[8..12];
    assert dg[14..18] == g[12..16] && dh[14..18] == h[12..16];
    assert dg[19..23] == g[16..20] && dh[19..23] == h[16..20];
    assert dg[24..36] == g[20..32] && dh[24..36] == h[20..32];
    assert g == g[0..8] + g[8..12] + g[12..16] + g[16..20] + g[20..32];
    assert h == h[0..8] + h[8..12] + h[12..16] + h[16..20] + h[20..32];
  }

  /** Distinct UUIDs have distinct texts, so a rendered id identifies its row. */
  lemma TextInjective(a: Uuid, b: Uuid)
    requires Text(a) == Text(b)
    ensures a == b
  {
    DashedInjective(Hex(a, 32), Hex(b, 32));
    HexInjective(a, b, 32);
  }
}

=== FILE: wrappers.dfy ===
/** Optional values and error-carrying results shared by every module. */
module Wrappers {

  /** A nullable value: a `NULL` column, an absent request field, a missing reference. */
  datatype Option<+T> = None | Some(value: T) {

    /** The wrapped value, or `default` when there is none. */
    function GetOr(default: T): T {
      match this
      case Some(v) => v
      case None => default
    }
  }

  /** The outcome of an operation that can fail with an error value. */
  datatype Result<+R, +E> = Success(value: R) | Failure(error: E)
}
